=== FILE: README.md ===
# spothotel booking core in Dafny

A model of the rules at the core of the spothotel hotel-booking backend. It also covers two small decision functions of its React frontend. Each module follows one part of the program:

- `domain.dfy` (`Domain`) holds the records: Hotel, Room, Booking and User. It also holds the booking status enum, the error kinds the controllers raise, and the `Store` of all records keyed by id.
  - A date is a pair: the raw value the client sent, and its timestamp. The timestamp is the instant rounded down to a whole second, in milliseconds. The clash check and the release (`bookingController.js:49-53`, `98-101`) and the search (`hotelController.js:169`) pass `Date.parse` a Date object. `Date.parse` reads that object back through its string form, which has no milliseconds. The past-day check (`bookingController.js:38`) parses a date string instead, and the model gives it the calendar day through `dayOf`. `Domain.DateAt` builds a date from an instant.
- `ledger.dfy` (`Ledger`) holds the availability ledger, a room's `notAvailable` list. It covers the duplicate check on raw values, the clash check on timestamps, the append that reserves, and the filter that releases.
- `reservations.dfy` (`Reservations`) models `bookingController.js`:
  - the fail-fast validation chain of `createBooking`;
  - the status machine of `updateBooking` (Processing, Checked, Complete), including the date release;
  - the owner-only `getOwnBookingDetails`.
- `booking_flows.dfy` (`BookingFlows`) states what sequences of booking requests do to a room.
- `hotel_search.dfy` (`HotelSearch`) models the query validation, date-range expansion and filters of `getAllHotels`.
- `inventory.dfy` (`Inventory`) models room creation, room update and deletion, and hotel deletion.
- `accounts.dfy` (`Accounts`) models sign-up, login, password change, role change and account deletion.
- `consistency.dfy` (`Consistency`) states the store invariant and proves that every mutating controller keeps it. In the invariant:
  - links between hotels, rooms and bookings hold both ways;
  - room numbers are unique per hotel;
  - each room's reserved timestamps are exactly those of its active bookings, which never overlap.
- `routing.dfy` (`Routing`) models `ProtectedRoute`.
- `dashboard.dfy` (`Dashboard`) models `generateMonthlyBookingCount`.
- `text.dfy` (`Text`) models JavaScript's `String.prototype.trim`. The schemas' `trim: true` option applies it to the user's name and email and to the room's name, both when a record is written and when a query filters on the field.
- `seqs.dfy` (`Seqs`) holds an order-keeping filter (JavaScript's `Array.prototype.filter`) and the subsequence relation.

Each mutating controller that can fail is a function from the store and the request to `Result<Store>`. A failing controller returns the error it reports and no store, so nothing it would have written changes. The exceptions:

- `Accounts.DeleteUser`, and its corrected form `Accounts.DeleteUserReleasing`, cannot fail and return a bare `Store`.
- The read-only controllers return what they read: `Accounts.LoginUser` returns `Result<Id>`, and `Reservations.GetOwnBookingDetails` returns `Result<Booking>`.
- `HotelSearch.SearchHotels` is a method returning `Result<seq<Hotel>>`.

The environment is passed in as parameters:

- the server clock `now`;
- the calendar day of a timestamp, `dayOf`;
- the browser month of a timestamp, `monthOf`;
- the payment intent returned by the payment provider;
- the password-hash comparison `matches`;
- the fresh ids the database assigns.

How `createBooking` compares dates and prices:

- It compares dates in three different ways:
  - the "not in the past" check compares calendar days (`bookingController.js:38`);
  - the duplicate check compares raw values (`bookingController.js:43`);
  - the clash check and the release compare timestamps, which are whole seconds (`bookingController.js:49-53`, `98-101`).

  The model keeps all three. As a result, one instant sent under two spellings passes the duplicate check and is reserved twice (`BookingFlows.TwoSpellingsOfOneInstant`). Two instants on the same calendar day do not clash unless they fall in the same second (`Ledger.SameSecondClash`).
- It never checks that `totalPrice` equals the number of dates times the room's price per day. It only checks that the captured payment amount is `totalPrice * 100`, and the model does the same.

## Model

| member | source | states |
|---|---|---|
| Domain.DateAt | backend/controllers/bookingController.js:49-53 | The timestamp of a date is a whole number of seconds. It is the last whole second at or before the instant. |
| Domain.ParseStatus | backend/models/Booking.js:39-43 | A stored status is one of Processing, Checked and Complete. A string names a status exactly when it is one of those three names. |
| Seqs.DistinctIffSizesAgree | backend/controllers/bookingController.js:43 | Comparing the size of the set of values with the list's length detects repeats exactly: sizes agree if and only if no two positions hold the same value. |
| Ledger.HasDuplicate | backend/controllers/bookingController.js:43-46 | The duplicate check fires if and only if two requested dates have the same raw value. |
| Ledger.AlreadyBooked | backend/controllers/bookingController.js:48-56 | The clash check fires if and only if some requested timestamp is already among the room's reserved timestamps. |
| Ledger.Reserve | backend/controllers/bookingController.js:58-62 | Reserving yields the old list followed by the requested dates in request order. Its timestamps are the union of both. |
| Ledger.ReleaseStamps | backend/controllers/bookingController.js:98-102 | Releasing a set of timestamps leaves exactly the other timestamps. The survivors keep their order, and each surviving date keeps its multiplicity. |
| Ledger.Release | backend/controllers/bookingController.js:98-102 | Releasing a booking's dates removes every entry whose timestamp matches one of them, whatever its raw spelling. Every other entry is kept, in order. |
| Ledger.ReleaseAbsentIsNoop | backend/controllers/bookingController.js:98-102 | Releasing timestamps the room does not hold leaves the list unchanged. |
| Ledger.ReleaseUndoesReserve | backend/controllers/bookingController.js:98-102 | Releasing the dates just reserved, when they did not clash, gives back the original list exactly. |
| Ledger.SameSecondClash | backend/controllers/bookingController.js:49-53 | A reserved date and a requested date clash if and only if their instants fall in the same whole second, whatever their spellings and milliseconds. |
| Reservations.NewBooking | backend/controllers/bookingController.js:64-73 | A new booking records the user, hotel and room, the request's dates, total price, phone and payment info, and the payment time. It starts Processing, the schema's default status (`Booking.js:39-43`). |
| Reservations.CreateBooking | backend/controllers/bookingController.js:9-75 | The checks run in source order, and the first failure gives its error: payment, hotel, room, room in hotel, non-empty dates, no past day, no repeated raw value, no clash. Success happens if and only if all pass. The room's list then becomes the old list followed by the request, in order. The booking is stored, and nothing else changes. |
| Reservations.Target | backend/controllers/bookingController.js:86-88 | Only "Complete" and "Checked" name a target status. |
| Reservations.TargetsAreSchemaStatuses | backend/models/Booking.js:39-43 | Every target the status change accepts is a value of the booking schema's status enum. The only enum value it refuses is the initial Processing. |
| Reservations.UpdateBooking | backend/controllers/bookingController.js:83-115 | An unknown target is rejected before the lookup, then a missing booking gives 404. Complete is never left. Checked is refused for a Checked booking with "already checked in", and for a Complete one with "can't change". Success follows the transition table. Only the status changes. Check-in leaves rooms alone. Completion releases exactly the booking's timestamps from its room. |
| Reservations.GetOwnBookingDetails | backend/controllers/bookingController.js:126-135 | A missing booking gives 404, and someone else's booking gives 403. Otherwise the booking is returned. |
| BookingFlows.NewBookingVisibleToOwnerOnly | backend/controllers/bookingController.js:64-73 | After a successful booking, its owner asking for it gets exactly the stored new booking. Any other user gets "Access denied". |
| BookingFlows.OverlappingRebookingRejected | backend/controllers/bookingController.js:48-56 | After a successful booking, any request for the same room that shares a timestamp with it fails. When its earlier checks pass, it fails with "Room already booked". |
| BookingFlows.SecondBookingOfRoom | backend/controllers/bookingController.js:48-62 | After one successful booking of a room, a second booking of that room succeeds if and only if its own checks pass and its timestamps avoid both the room's earlier dates and the first request's. The room then lists the earlier dates, then the first request, then the second. |
| BookingFlows.CompleteSucceeds | backend/controllers/bookingController.js:94-107 | Completing a booking that is not yet Complete, and whose room exists, succeeds. |
| BookingFlows.CompletedRooms | backend/controllers/bookingController.js:97-104 | After a completion, the rooms are the old rooms, except that the booking's room has the release of the booking's dates as its list. |
| BookingFlows.CompleteUndoesReserve | backend/controllers/bookingController.js:94-107 | Completing an active booking whose dates were appended without clash restores the rooms to what they were before the append. |
| BookingFlows.BookThenCompleteRestores | backend/controllers/bookingController.js:58-107 | Creating a booking and then completing it succeeds, and leaves every room exactly as before the booking. |
| BookingFlows.CompleteIsTerminal | backend/controllers/bookingController.js:94-95 | Once a booking is completed, every later status change of it fails. |
| BookingFlows.CheckInOnlyFromProcessing | backend/controllers/bookingController.js:109-115 | Check-in succeeds if and only if the booking exists and is Processing, and it moves no date. |
| BookingFlows.CompleteReleasesByTimestamp | backend/controllers/bookingController.js:94-102 | Completing an active booking of an existing room succeeds. Afterwards a reserved date stays in the room if and only if its timestamp is none of the booking's. |
| BookingFlows.TwoSpellingsOfOneInstant | backend/controllers/bookingController.js:43-62 | For example, in a store with one empty room, a booking of "2030-01-01" and "2030-01-01T00:00:00.000Z" (one instant, two spellings) passes the duplicate check and succeeds. The room then lists both entries, under a single timestamp. |
| HotelSearch.ExpandRange | backend/controllers/hotelController.js:168-172 | The expansion lists d1, d1 plus a day, and so on, ascending, one entry per day, never past d2. A timestamp is listed if and only if it is a whole number of days from d1 within the range. |
| HotelSearch.KeepEnoughRooms | backend/controllers/hotelController.js:175-182 | Keeps, in order, exactly the hotels listing at least the requested number of rooms. Each kept hotel appears as many times as in the input. |
| HotelSearch.KeepSuitable | backend/controllers/hotelController.js:184-190 | Keeps, in order, exactly the hotels with some room suiting the party: any room for one person, a Double for more. Each kept hotel appears as many times as in the input. |
| HotelSearch.KeepFree | backend/controllers/hotelController.js:192-200 | Keeps, in order, exactly the hotels with some room that has no reserved timestamp among the expanded days. Each kept hotel appears as many times as in the input. |
| HotelSearch.FreeOnExpandedRange | backend/controllers/hotelController.js:192-200 | A room is free on every expanded day if and only if none of its reserved timestamps is a day of the range. |
| HotelSearch.SearchHotels | backend/controllers/hotelController.js:152-206 | A person count below 1, a room count below 1, and then d1 after d2 are rejected, in that order. Otherwise the result is a subsequence of the candidates. It holds exactly the hotels with enough rooms, with a suitable room when a party size is given, and with a room free throughout the range when one is given. Each wanted hotel appears as many times as among the candidates. |
| Inventory.CreateRoom | backend/controllers/roomController.js:10-38 | A missing hotel gives 404, and a number already used in that hotel gives 400. Otherwise the new room takes its number, type, specification and price per day from the body, and the body's name trimmed (`Room.js:11`). It names the hotel and has nothing reserved, and its id is appended to the hotel's list. Nothing else changes. |
| Inventory.UpdateRoom | backend/controllers/roomController.js:94-114 | A truthy number is rejected before any lookup, then a missing room gives 404. Success sets type, specification and price per day to the values the body gives, and the name to the body's name trimmed (`Room.js:11`). It keeps the old value of each field the body leaves out. Number, reserved dates and hotel stay as they were. |
| Inventory.Unlink | backend/controllers/roomController.js:133 | The hotel's list loses exactly the room id. Every other id keeps its place and multiplicity. |
| Inventory.KeepBookings | backend/controllers/roomController.js:142-148 | Exactly the bookings the predicate does not select survive, unchanged. |
| Inventory.DeleteRoom | backend/controllers/roomController.js:124-151 | A missing room gives 404, and a room whose hotel is missing crashes. Otherwise the room leaves the store and its hotel's list. Exactly the bookings of other rooms survive. |
| Inventory.DeleteHotel | backend/controllers/hotelController.js:95-127 | A missing hotel gives 404. Otherwise the hotel, every room it lists and every booking made at it are deleted. Everything else survives unchanged. |
| Text.Trim | backend/models/User.js:15 | Trimming leaves no space character at either end, and gives the empty string exactly for a string of spaces. |
| Text.TrimSplit | backend/models/User.js:15 | Every string is the spaces trimming removes in front, the trimmed string, and the spaces it removes at the end. |
| Text.TrimPadded | backend/models/User.js:15 | Spaces put around a string with no space at either end are exactly what trimming removes. |
| Text.TrimIgnoresPadding | backend/models/User.js:15 | Adding spaces at either end of any string does not change its trim. |
| Text.TrimIdempotent | backend/models/User.js:15 | A string is its own trim if and only if neither end is a space, so trimming twice is trimming once. |
| Accounts.CreateUser | backend/controllers/userController.js:8-19 | A password shorter than 8 characters gives 400. Then the email, trimmed (`User.js:15`), is refused by the unique index if another user already has it, and nothing is written. Otherwise the stored new user is exactly the trimmed name (`User.js:10`), the trimmed email, the password and the default role "user". |
| Accounts.CreateUserKeepsEmailsUnique | backend/models/User.js:12-18 | A successful sign-up keeps emails unique across users. If every stored email was trimmed, every one still is. |
| Accounts.SignUpRefusesPaddedEmail | backend/models/User.js:12-18 | In a store whose emails are trimmed, a sign-up whose email is a stored email with spaces around it is refused as taken. |
| Accounts.FindByEmail | backend/controllers/userController.js:28 | The lookup finds a user if and only if some user has the email, and then it is the user with that email. |
| Accounts.Authenticate | backend/controllers/userController.js:29-43 | With nobody found the answer is 404 "User not found". Then a missing password gives 400 "Please enter password", and a non-matching one "Password incorrect" with no status. Otherwise it is the found user. |
| Accounts.LoginUser | backend/controllers/userController.js:25-44 | The lookup is by the trimmed email, as the schema's setter runs on the query filter (`User.js:15`). An unknown email gives 404 before a missing password gives 400. Login succeeds if and only if the password matches that user's stored one. A password that does not match gives "Password incorrect" with no status. Each failure carries the message the controller passes. |
| Accounts.LoginIgnoresPadding | backend/controllers/userController.js:28 | Spaces around the email a login sends do not change its outcome. |
| Accounts.SignUpThenLogin | backend/controllers/userController.js:8-41 | After a successful sign-up, logging in with the same email and password logs in as the new user. This holds when the hash comparison accepts a password against its own hash. Emails stay unique and every role stays known. |
| Accounts.ChangePasswordThenLogin | backend/controllers/userController.js:103-121 | In a store whose emails are unique and trimmed, after a successful password change, login with the new password succeeds. An old password that the new one does not match is refused as incorrect. Emails stay unique and trimmed. |
| Accounts.ChangePassword | backend/controllers/userController.js:103-121 | In order: a missing old or new password gives 400, a wrong old password is rejected, and a new password shorter than 8 gives 400. Success changes only the password. |
| Accounts.ChangeUserRole | backend/controllers/userController.js:153-172 | Changing one's own role is refused before the lookup. Then a missing user gives 404 and a role other than user/admin gives 400. Success changes only that user's role. |
| Accounts.CreateUserKeepsRolesKnown | backend/models/User.js:29-32 | Sign-up gives the default role "user", so if every role was user or admin before, it still is. |
| Accounts.ChangeUserRoleKeepsUsers | backend/controllers/userController.js:166-170 | A role change keeps every role user or admin, keeps emails unique, and keeps trimmed emails trimmed. |
| Accounts.DeleteUser | backend/controllers/userController.js:84-95 | Exactly the bookings of other users survive, unchanged. The user is removed. Rooms and hotels are untouched, so the deleted bookings' dates stay reserved. |
| Accounts.DeleteUserReleasing | backend/controllers/userController.js:84-95 | The same deletion, except each room also gives up exactly the timestamps the user's active bookings held in it. Each room keeps its other dates in order, and each date whose timestamp the user did not hold keeps its multiplicity. |
| Consistency.CreateBookingPreserves | backend/controllers/bookingController.js:58-75 | A successful booking keeps the store invariant: the new booking holds exactly the timestamps appended to its room. |
| Consistency.CheckInKeepsLedger | backend/controllers/bookingController.js:109-115 | Check-in keeps the ledger part of the invariant. |
| Consistency.CompleteKeepsLedger | backend/controllers/bookingController.js:94-107 | Completion keeps the ledger part of the invariant. |
| Consistency.UpdateBookingPreserves | backend/controllers/bookingController.js:83-115 | Every successful status change keeps the store invariant. |
| Consistency.CreateRoomPreserves | backend/controllers/roomController.js:10-38 | Room creation keeps the store invariant, including unique numbers per hotel. |
| Consistency.UpdateRoomPreserves | backend/controllers/roomController.js:94-114 | Room update keeps the store invariant. |
| Consistency.DeleteRoomPreserves | backend/controllers/roomController.js:124-151 | Room deletion keeps the store invariant: no hotel lists the room and no booking names it. |
| Consistency.DeleteHotelPreserves | backend/controllers/hotelController.js:95-127 | Hotel deletion keeps the store invariant: nothing left names the hotel or its rooms. |
| Consistency.DeleteUserOrphansDates | backend/controllers/userController.js:86-93 | In a consistent store, deleting a user who holds an active booking with dates leaves a reserved timestamp that no booking holds. |
| Consistency.DeleteUserOrphansOneBooking | backend/controllers/userController.js:86-93 | A concrete consistent store (one hotel, one room, one booked day) stops being consistent when its user is deleted. |
| Consistency.DeleteUserReleasingFreesDates | backend/controllers/userController.js:86-93 | In that store, the corrected deletion leaves the room with nothing reserved. |
| Consistency.DeleteUserReleasingPreserves | backend/controllers/userController.js:84-95 | The corrected deletion keeps the store invariant for every consistent store. |
| Routing.ProtectedRoute | frontend/src/utils/ProtectedRoute.js:12-16 | Exactly one part renders. While loading it is the loader. When not signed in it is a redirect to /login, whatever the route. A signed-in user sees the page on a non-admin route, and on an admin route only as an admin. A non-admin on an admin route is redirected to /account. |
| Dashboard.MonthlyBookingCount | frontend/src/screens/Dashboard.js:37-52 | Twelve buckets carry the month names in calendar order. Each count is the number of dates in that month, so with no dates every count is 0. The counts sum to the number of dates. |
| Dashboard.OneMoreDate | frontend/src/screens/Dashboard.js:47-50 | One more date adds one to its own month's count and leaves the other months unchanged. |
| Dashboard.MonthsPermutation | frontend/src/screens/Dashboard.js:47-52 | Reordering the dates does not change how many fall in each month. |
| Dashboard.OrderIndependent | frontend/src/screens/Dashboard.js:37-52 | Two reorderings of the same dates produce the same histogram. |

## Left out

- The payment provider call is left out. The retrieved payment intent is an input record holding a status and an amount, and a failed retrieval is not modelled.
- Database persistence is left out: `populate`, the save order "create booking, then save room", and partial failure between writes. A controller's result is applied whole or not at all.
- The case-insensitive `$regex` location match of `getAllHotels` is left out. Its semantics belong to the database, so the search starts from the already matched `candidates`.
- The check-then-append race on `notAvailable` between concurrent requests is left out. The model is sequential.
- Date parsing and time zones are left out. A date's timestamp, the calendar day (`dayOf`), the browser month (`monthOf`) and the server clock (`now`) are inputs. Unparseable dates, which give NaN, are not modelled, and neither is their effect on the checks or on the month histogram.
- HotelSearch.ExpandRange: the step is a fixed 86,400,000 ms day, so days that daylight-saving time lengthens or shortens are not modelled.
- HotelSearch.SearchHotels: the code compares `d1 > d2` as query strings. The model compares the timestamps, which agree for dates written in one ISO format.
- HotelSearch.SearchHotels: the room and person counts are integers. `Number(...)` can also give NaN or a fraction, and the model covers neither. For example `person=abc` gives NaN, which passes the `< 1` check and then counts as a single person. `person=1.5` asks for a Double room, and `room=1.5` asks for at least two rooms.
- Prices and amounts are integers, so floating-point arithmetic in `totalPrice * 100` is not modelled. String lengths count characters, not UTF-16 code units.
- Password hashing, JWT and cookies are left out. Whether a password matches is the parameter `matches`.
- Accounts.CreateUser: a missing password, which crashes on `.length`, is not modelled. Neither is the schema's email format validation, nor its required check on a name that is empty after trimming. The unique-email rejection is modelled, but its status code and exact message come from the error middleware, which is not part of this model.
- Accounts.LoginUser requires unique emails, which the user schema's unique index guarantees. A body with no email, which the code passes on to `findOne`, is not modelled.
- Inventory.UpdateRoom: a field the body leaves out keeps its value. How the database treats an explicit undefined is not modelled. `bedCount` is not a room field, so it is dropped. The update runs without schema validators, so the code can store any type string, for example "Triple". Such a room never counts as a Double in the search. The model's room type is the two-valued `RoomType` and does not cover this.
- Schema-level required-field validation on create (Booking.js:4-38, Room.js:4-25, User.js:7-11) is left out. The records' fields are always present, and a room name that is empty after trimming is stored.
- Text.IsSpace fixes the space separators `trim` strips to those of current Unicode versions; an engine built on another Unicode version may strip a different set. A field sent as something other than a string, which the setter leaves alone, is not modelled.
- Picture uploads and their deletion with the image host are left out, as are the upload middleware and Express routing. These are I/O and library wrappers.
- The other controllers are left out: reading hotels, rooms, bookings and users, hotel create and update, user profile update (`updateUser`), and logout. They only read or write single records.
- React rendering, the Redux store, and the VAT and price display are left out.

## Findings

| source | as written | input that shows it | evidently intended | confidence | as-written member | corrected member |
|---|---|---|---|---|---|---|
| backend/controllers/userController.js:86-93 | `deleteUser` deletes the user's bookings but does not release their dates from the rooms' `notAvailable` lists | A store with one room and one Processing booking of one day by user "u", then deleting "u". The day stays reserved with no booking holding it, and no later booking of that day can succeed. | Deleting a booking that still holds dates gives them back to its room, as completing it does (bookingController.js:98-102) | medium, not executed | Consistency.DeleteUserOrphansOneBooking | Accounts.DeleteUserReleasing |

=== FILE: accounts.dfy ===
/**
 * User administration (backend/controllers/userController.js): sign-up,
 * login, password change, role change and account deletion. Whether a
 * given password matches a stored one is decided by `matches`, which
 * stands for the hash comparison.
 */
module Accounts {
  import opened Domain
  import opened Seqs
  import opened Ledger
  import opened Text

  /** The shortest password sign-up and password change accept. */
  const MinPasswordLength: nat := 8

  /** The role a new user gets. */
  const DefaultRole: string := "user"

  /** A body field is truthy: present and not the empty string. */
  predicate Given(field: Option<string>) {
    field.Some? && field.value != ""
  }

  /** Emails are unique across users (the schema's unique index). */
  predicate EmailsUnique(users: map<Id, User>) {
    forall a, b :: a in users && b in users && users[a].email == users[b].email ==> a == b
  }

  predicate HasEmail(users: map<Id, User>, email: string) {
    exists id :: id in users && users[id].email == email
  }

  /** The user `findOne({ email })` returns, if any user has that email. */
  function FindByEmail(users: map<Id, User>, email: string): (r: Option<Id>)
    requires EmailsUnique(users)
    ensures r.Some? <==> HasEmail(users, email)
    ensures forall id :: id in users && users[id].email == email ==> r == Some(id)
  {
    if HasEmail(users, email) then
      var id :| id in users && users[id].email == email;
      Some(id)
    else None
  }

  /** Every stored email is trimmed, as the schema's `trim` setter leaves it. */
  predicate EmailsTrimmed(users: map<Id, User>) {
    forall id :: id in users ==> Trimmed(users[id].email)
  }

  /**
   * `createUser`: stores a new user with the default role. The schema
   * trims the name and the email before the insert, and a trimmed email
   * that is already taken makes the unique index reject it, after the
   * length check and with nothing written.
   */
  function CreateUser(s: Store, userId: Id, name: string, email: string, password: string): (r: Result<Store>)
    requires userId !in s.users
    ensures |password| < MinPasswordLength ==> r == Fail(PasswordTooShort)
    ensures |password| >= MinPasswordLength && HasEmail(s.users, Trim(email)) ==> r == Fail(EmailTaken)
    ensures r.Ok? <==> |password| >= MinPasswordLength && !HasEmail(s.users, Trim(email))
    ensures r.Ok? ==>
      && r.value.users.Keys == s.users.Keys + {userId}
      && (forall id :: id in s.users ==> r.value.users[id] == s.users[id])
      && r.value.users[userId] == User(Trim(name), Trim(email), password, DefaultRole)
      && r.value.(users := s.users) == s
  {
    var email := Trim(email);
    if |password| < MinPasswordLength then Fail(PasswordTooShort)
    else if HasEmail(s.users, email) then Fail(EmailTaken)
    else Ok(s.(users := s.users[userId := User(Trim(name), email, password, DefaultRole)]))
  }

  /**
   * `loginUser`: finds the user by email first, and only then looks at the
   * password. The schema's `trim` setter also runs on the query filter, so
   * the lookup is by the trimmed email. Returns the id of the user who logs
   * in.
   */
  function LoginUser(s: Store, email: string, password: Option<string>, matches: (string, string) -> bool): (r: Result<Id>)
    requires EmailsUnique(s.users)
    ensures !HasEmail(s.users, Trim(email)) ==> r == Fail(UserNotFound)
    ensures HasEmail(s.users, Trim(email)) && !Given(password) ==> r == Fail(PasswordRequired)
    ensures r.Ok? ==>
      && r.value in s.users
      && s.users[r.value].email == Trim(email)
      && Given(password)
      && matches(password.value, s.users[r.value].password)
    ensures forall id :: (id in s.users && s.users[id].email == Trim(email) && Given(password)
                          ==> (r.Ok? <==> matches(password.value, s.users[id].password)))
    ensures forall id :: ((id in s.users && s.users[id].email == Trim(email) && Given(password)
                           && !matches(password.value, s.users[id].password)) ==> r == Fail(PasswordIncorrect))
    ensures r.Fail? ==> r.error in {UserNotFound, PasswordRequired, PasswordIncorrect}
    // 404 for an unknown email, 400 for a missing password, no status for a wrong one
    ensures r.Fail? ==> r.error.Code() == (if !HasEmail(s.users, Trim(email)) then Some(404)
                                           else if !Given(password) then Some(400) else None)
    ensures r.Fail? ==> r.error.Message() == (if !HasEmail(s.users, Trim(email)) then "User not found"
                                              else if !Given(password) then "Please enter password"
                                              else "Password incorrect")
  {
    Authenticate(s.users, FindByEmail(s.users, Trim(email)), password, matches)
  }

  /** What `loginUser` answers once the lookup has found `found`, or nobody. */
  function Authenticate(users: map<Id, User>, found: Option<Id>, password: Option<string>,
                        matches: (string, string) -> bool): (r: Result<Id>)
    requires found.Some? ==> found.value in users
    ensures found.None? ==> r == Fail(UserNotFound)
    ensures found.Some? && !Given(password) ==> r == Fail(PasswordRequired)
    ensures found.Some? && Given(password) && !matches(password.value, users[found.value].password)
            ==> r == Fail(PasswordIncorrect)
    ensures r.Ok? <==> found.Some? && Given(password) && matches(password.value, users[found.value].password)
    ensures r.Ok? ==> found == Some(r.value)
    ensures r.Fail? ==> r.error in {UserNotFound, PasswordRequired, PasswordIncorrect}
    ensures r.Fail? ==> r.error.Code() == (if found.None? then Some(404)
                                           else if !Given(password) then Some(400) else None)
    ensures r.Fail? ==> r.error.Message() == (if found.None? then "User not found"
                                              else if !Given(password) then "Please enter password"
                                              else "Password incorrect")
  {
    if found.None? then Fail(UserNotFound)
    else if !Given(password) then Fail(PasswordRequired)
    else if !matches(password.value, users[found.value].password) then Fail(PasswordIncorrect)
    else Ok(found.value)
  }

  /**
   * `changePassword` for the signed-in user `userId`: both passwords must
   * be given, the old one must match, and the new one must be long enough,
   * checked in that order.
   */
  function ChangePassword(
    s: Store, userId: Id, oldPassword: Option<string>, newPassword: Option<string>,
    matches: (string, string) -> bool): (r: Result<Store>)
    ensures !Given(oldPassword) || !Given(newPassword) ==> r == Fail(PasswordsRequired)
    ensures Given(oldPassword) && Given(newPassword) && userId !in s.users ==> r == Fail(Crash)
    ensures Given(oldPassword) && Given(newPassword) && userId in s.users ==>
      && (!matches(oldPassword.value, s.users[userId].password) ==> r == Fail(OldPasswordIncorrect))
      && (matches(oldPassword.value, s.users[userId].password) && |newPassword.value| < MinPasswordLength
          ==> r == Fail(PasswordTooShort))
    ensures r.Ok? <==>
      && Given(oldPassword) && Given(newPassword) && userId in s.users
      && matches(oldPassword.value, s.users[userId].password)
      && |newPassword.value| >= MinPasswordLength
    ensures r.Ok? ==>
      && r.value.users == s.users[userId := s.users[userId].(password := newPassword.value)]
      && r.value.(users := s.users) == s
  {
    if !Given(oldPassword) || !Given(newPassword) then Fail(PasswordsRequired)
    else if userId !in s.users then Fail(Crash)
    else
      var user := s.users[userId];
      if !matches(oldPassword.value, user.password) then Fail(OldPasswordIncorrect)
      else if |newPassword.value| < MinPasswordLength then Fail(PasswordTooShort)
      else Ok(s.(users := s.users[userId := user.(password := newPassword.value)]))
  }

  /** The two roles a user can be given. */
  predicate KnownRole(role: string) {
    role == "user" || role == "admin"
  }

  /**
   * `chageUserRole`: the signed-in admin `actorId` sets the role of user
   * `targetId`.
   */
  function ChangeUserRole(s: Store, actorId: Id, targetId: Id, role: string): (r: Result<Store>)
    ensures targetId == actorId ==> r == Fail(OwnRoleChange)
    ensures targetId != actorId && targetId !in s.users ==> r == Fail(UserNotFound)
    ensures targetId != actorId && targetId in s.users && !KnownRole(role) ==> r == Fail(UnknownRole)
    ensures r.Ok? <==> targetId != actorId && targetId in s.users && KnownRole(role)
    ensures r.Ok? ==>
      && r.value.users.Keys == s.users.Keys
      && r.value.users[targetId].role == role
      && r.value.users[targetId].(role := s.users[targetId].role) == s.users[targetId]
      && (forall id :: id in s.users && id != targetId ==> r.value.users[id] == s.users[id])
      && r.value.(users := s.users) == s
  {
    if targetId == actorId then Fail(OwnRoleChange)
    else if targetId !in s.users then Fail(UserNotFound)
    else if !KnownRole(role) then Fail(UnknownRole)
    else Ok(s.(users := s.users[targetId := s.users[targetId].(role := role)]))
  }

  /**
   * `deleteUser` for the signed-in user `userId`: deletes the user's
   * bookings and the user. The rooms those bookings reserved keep their
   * dates.
   */
  function DeleteUser(s: Store, userId: Id): (r: Store)
    ensures forall id :: id in r.bookings <==> id in s.bookings && s.bookings[id].user != userId
    ensures forall id :: id in r.bookings ==> r.bookings[id] == s.bookings[id]
    ensures r.users == s.users - {userId}
    ensures r.rooms == s.rooms && r.hotels == s.hotels
  {
    s.(bookings := map id | id in s.bookings && s.bookings[id].user != userId :: s.bookings[id],
       users := s.users - {userId})
  }

  /** The timestamps that active bookings of user `userId` hold in room `roomId`. */
  function HeldBy(s: Store, userId: Id, roomId: Id): (held: set<int>)
    ensures forall t :: t in held <==>
      exists bid :: bid in s.bookings && s.bookings[bid].user == userId && s.bookings[bid].room == roomId
        && Active(s.bookings[bid]) && t in Stamps(s.bookings[bid].dates)
  {
    set bid, t | bid in s.bookings && s.bookings[bid].user == userId && s.bookings[bid].room == roomId
      && Active(s.bookings[bid]) && t in Stamps(s.bookings[bid].dates) :: t
  }

  /**
   * `deleteUser` as it would be if each deleted booking released its dates,
   * the way completing a booking does: every room gives up the timestamps
   * the user's active bookings hold in it.
   */
  function DeleteUserReleasing(s: Store, userId: Id): (r: Store)
    ensures r.(rooms := s.rooms) == DeleteUser(s, userId)
    ensures r.rooms.Keys == s.rooms.Keys
    ensures forall rid :: rid in s.rooms ==>
      && r.rooms[rid] == s.rooms[rid].(notAvailable := r.rooms[rid].notAvailable)
      && Stamps(r.rooms[rid].notAvailable) == Stamps(s.rooms[rid].notAvailable) - HeldBy(s, userId, rid)
      && IsSubsequence(r.rooms[rid].notAvailable, s.rooms[rid].notAvailable)
    ensures forall rid, d: Date :: rid in s.rooms && d.stamp !in HeldBy(s, userId, rid) ==>
      multiset(r.rooms[rid].notAvailable)[d] == multiset(s.rooms[rid].notAvailable)[d]
  {
    var released := map rid | rid in s.rooms ::
      s.rooms[rid].(notAvailable := ReleaseStamps(s.rooms[rid].notAvailable, HeldBy(s, userId, rid)));
    DeleteUser(s, userId).(rooms := released)
  }

  /** Every user's role is one of the two known roles. */
  predicate RolesKnown(users: map<Id, User>) {
    forall id :: id in users ==> KnownRole(users[id].role)
  }

  /** Sign-up refuses a taken email, so emails stay unique, and it stores the email trimmed. */
  lemma CreateUserKeepsEmailsUnique(s: Store, userId: Id, name: string, email: string, password: string)
    requires userId !in s.users && EmailsUnique(s.users)
    requires CreateUser(s, userId, name, email, password).Ok?
    ensures EmailsUnique(CreateUser(s, userId, name, email, password).value.users)
    ensures EmailsTrimmed(s.users) ==> EmailsTrimmed(CreateUser(s, userId, name, email, password).value.users)
  {
    var s1 := CreateUser(s, userId, name, email, password).value;
    assert s1.users == s.users[userId := s1.users[userId]];
  }

  /**
   * A successful sign-up, then a login with the same password, logs in as
   * the new user. Every role stays known.
   */
  lemma SignUpThenLogin(
    s: Store, userId: Id, name: string, email: string, password: string,
    matches: (string, string) -> bool)
    requires userId !in s.users
    requires EmailsUnique(s.users) && RolesKnown(s.users)
    requires CreateUser(s, userId, name, email, password).Ok?
    requires matches(password, password)
    ensures EmailsUnique(CreateUser(s, userId, name, email, password).value.users)
    ensures RolesKnown(CreateUser(s, userId, name, email, password).value.users)
    ensures LoginUser(CreateUser(s, userId, name, email, password).value, email, Some(password), matches)
            == Ok(userId)
  {
    CreateUserKeepsEmailsUnique(s, userId, name, email, password);
    var s1 := CreateUser(s, userId, name, email, password).value;
    assert s1.users[userId].email == Trim(email);
    assert HasEmail(s1.users, Trim(email));
  }

  /**
   * After a successful password change the user logs in with the new
   * password, and an old password that the new one does not match is
   * refused as incorrect.
   */
  lemma ChangePasswordThenLogin(
    s: Store, userId: Id, oldPassword: Option<string>, newPassword: Option<string>,
    matches: (string, string) -> bool)
    requires EmailsUnique(s.users) && EmailsTrimmed(s.users)
    requires ChangePassword(s, userId, oldPassword, newPassword, matches).Ok?
    requires matches(newPassword.value, newPassword.value)
    ensures EmailsUnique(ChangePassword(s, userId, oldPassword, newPassword, matches).value.users)
    ensures EmailsTrimmed(ChangePassword(s, userId, oldPassword, newPassword, matches).value.users)
    ensures LoginUser(ChangePassword(s, userId, oldPassword, newPassword, matches).value,
                      s.users[userId].email, newPassword, matches) == Ok(userId)
    ensures !matches(oldPassword.value, newPassword.value) ==>
      LoginUser(ChangePassword(s, userId, oldPassword, newPassword, matches).value,
                s.users[userId].email, oldPassword, matches) == Fail(PasswordIncorrect)
  {
    var s1 := ChangePassword(s, userId, oldPassword, newPassword, matches).value;
    var email := s.users[userId].email;
    TrimIdempotent(email);
    assert s1.users[userId].email == email;
    assert HasEmail(s1.users, email);
  }

  /** Sign-up gives the default role, so every role stays known. */
  lemma CreateUserKeepsRolesKnown(s: Store, userId: Id, name: string, email: string, password: string)
    requires userId !in s.users && RolesKnown(s.users)
    requires CreateUser(s, userId, name, email, password).Ok?
    ensures RolesKnown(CreateUser(s, userId, name, email, password).value.users)
  {
  }

  /** Changing a role keeps emails unique and trimmed, and every role known. */
  lemma ChangeUserRoleKeepsUsers(s: Store, actorId: Id, targetId: Id, role: string)
    requires EmailsUnique(s.users) && RolesKnown(s.users)
    requires ChangeUserRole(s, actorId, targetId, role).Ok?
    ensures EmailsUnique(ChangeUserRole(s, actorId, targetId, role).value.users)
    ensures RolesKnown(ChangeUserRole(s, actorId, targetId, role).value.users)
    ensures EmailsTrimmed(s.users) ==> EmailsTrimmed(ChangeUserRole(s, actorId, targetId, role).value.users)
  {
  }

  /** Space characters around the email do not change whom a login finds. */
  lemma LoginIgnoresPadding(
    s: Store, pre: string, email: string, post: string, password: Option<string>,
    matches: (string, string) -> bool)
    requires EmailsUnique(s.users)
    requires AllSpace(pre) && AllSpace(post)
    ensures LoginUser(s, pre + email + post, password, matches) == LoginUser(s, email, password, matches)
  {
    TrimIgnoresPadding(pre, email, post);
  }

  /**
   * A sign-up whose email is a stored user's email with space characters
   * around it is refused as taken.
   */
  lemma SignUpRefusesPaddedEmail(
    s: Store, userId: Id, name: string, holder: Id, pre: string, post: string, password: string)
    requires userId !in s.users && holder in s.users && EmailsTrimmed(s.users)
    requires AllSpace(pre) && AllSpace(post)
    requires |password| >= MinPasswordLength
    ensures CreateUser(s, userId, name, pre + s.users[holder].email + post, password) == Fail(EmailTaken)
  {
    var email := s.users[holder].email;
    TrimIgnoresPadding(pre, email, post);
    TrimIdempotent(email);
    assert HasEmail(s.users, Trim(pre + email + post));
  }
}

=== FILE: booking_flows.dfy ===
/**
 * What sequences of booking requests do to a room: a second booking of a
 * reserved timestamp is refused, completing a booking gives its room back
 * exactly what booking it took, and nothing moves a Complete booking.
 */
module BookingFlows {
  import opened Domain
  import opened Ledger
  import opened Reservations

  /** Once a booking succeeds, any later request sharing one of its timestamps fails. */
  lemma OverlappingRebookingRejected(
    s: Store, hotelId: Id, roomId: Id, userId: Id, req: BookingRequest, intent: PaymentIntent,
    now: int, dayOf: int -> int, bookingId: Id,
    userId2: Id, req2: BookingRequest, intent2: PaymentIntent, now2: int, bookingId2: Id)
    requires bookingId !in s.bookings
    requires CreateBooking(s, hotelId, roomId, userId, req, intent, now, dayOf, bookingId).Ok?
    requires bookingId2 !in CreateBooking(s, hotelId, roomId, userId, req, intent, now, dayOf, bookingId).value.bookings
    requires Stamps(req.dates) * Stamps(req2.dates) != {}
    ensures
      var s1 := CreateBooking(s, hotelId, roomId, userId, req, intent, now, dayOf, bookingId).value;
      var r2 := CreateBooking(s1, hotelId, roomId, userId2, req2, intent2, now2, dayOf, bookingId2);
      && r2.Fail?
      && ((PaymentVerified(intent2, req2.totalPrice) && NoneBeforeToday(req2.dates, now2, dayOf)
           && RawDistinct(req2.dates)) ==> r2.error == RoomAlreadyBooked)
  {
    var s1 := CreateBooking(s, hotelId, roomId, userId, req, intent, now, dayOf, bookingId).value;
    var t :| t in Stamps(req.dates) * Stamps(req2.dates);
    assert t in Stamps(s1.rooms[roomId].notAvailable) * Stamps(req2.dates);
    assert |req2.dates| > 0;
  }

  /**
   * A second booking of the room a first booking just reserved succeeds
   * exactly when its own checks pass and its timestamps avoid both the
   * room's earlier dates and the first request's; the room then lists the
   * earlier dates, the first request and the second, in that order.
   */
  lemma SecondBookingOfRoom(
    s: Store, hotelId: Id, roomId: Id, userId: Id, req: BookingRequest, intent: PaymentIntent,
    now: int, dayOf: int -> int, bookingId: Id,
    userId2: Id, req2: BookingRequest, intent2: PaymentIntent, now2: int, bookingId2: Id)
    requires bookingId !in s.bookings
    requires CreateBooking(s, hotelId, roomId, userId, req, intent, now, dayOf, bookingId).Ok?
    requires bookingId2 !in CreateBooking(s, hotelId, roomId, userId, req, intent, now, dayOf, bookingId).value.bookings
    ensures
      var s1 := CreateBooking(s, hotelId, roomId, userId, req, intent, now, dayOf, bookingId).value;
      var r2 := CreateBooking(s1, hotelId, roomId, userId2, req2, intent2, now2, dayOf, bookingId2);
      && (r2.Ok? <==>
          && PaymentVerified(intent2, req2.totalPrice)
          && |req2.dates| > 0
          && NoneBeforeToday(req2.dates, now2, dayOf)
          && RawDistinct(req2.dates)
          && Stamps(s.rooms[roomId].notAvailable) * Stamps(req2.dates) == {}
          && Stamps(req.dates) * Stamps(req2.dates) == {})
      && (r2.Ok? ==> r2.value.rooms[roomId].notAvailable == s.rooms[roomId].notAvailable + req.dates + req2.dates)
  {
    var s1 := CreateBooking(s, hotelId, roomId, userId, req, intent, now, dayOf, bookingId).value;
    var before := s.rooms[roomId].notAvailable;
    var mid := s1.rooms[roomId].notAvailable;
    assert mid == mid[..|before|] + mid[|before|..];
    assert mid == before + req.dates;
    assert Located(s1, hotelId, roomId);
    assert Stamps(mid) == Stamps(before) + Stamps(req.dates);
    var r2 := CreateBooking(s1, hotelId, roomId, userId2, req2, intent2, now2, dayOf, bookingId2);
    if r2.Ok? {
      var after := r2.value.rooms[roomId].notAvailable;
      assert after == after[..|mid|] + after[|mid|..];
    }
  }

  /**
   * The booking a user just made is shown to that user, and only to them.
   */
  lemma NewBookingVisibleToOwnerOnly(
    s: Store, hotelId: Id, roomId: Id, userId: Id, req: BookingRequest, intent: PaymentIntent,
    now: int, dayOf: int -> int, bookingId: Id, other: Id)
    requires bookingId !in s.bookings
    requires CreateBooking(s, hotelId, roomId, userId, req, intent, now, dayOf, bookingId).Ok?
    ensures
      var s1 := CreateBooking(s, hotelId, roomId, userId, req, intent, now, dayOf, bookingId).value;
      && GetOwnBookingDetails(s1, bookingId, userId) == Ok(NewBooking(hotelId, roomId, userId, req, now))
      && (other != userId ==> GetOwnBookingDetails(s1, bookingId, other) == Fail(AccessDenied))
  {
  }

  /** Completing an active booking of an existing room succeeds. */
  lemma CompleteSucceeds(s: Store, bookingId: Id)
    requires bookingId in s.bookings && Active(s.bookings[bookingId])
    requires s.bookings[bookingId].room in s.rooms
    ensures UpdateBooking(s, bookingId, "Complete").Ok?
  {
    assert Target("Complete") == Some(Complete);
    assert Transition(s.bookings[bookingId].status, Complete);
  }

  /** Completing a booking replaces its room's list by the release of the booking's dates. */
  lemma CompletedRooms(s: Store, bookingId: Id)
    requires UpdateBooking(s, bookingId, "Complete").Ok?
    ensures
      var b := s.bookings[bookingId];
      && b.room in s.rooms
      && UpdateBooking(s, bookingId, "Complete").value.rooms
         == s.rooms[b.room := s.rooms[b.room].(notAvailable := Release(s.rooms[b.room].notAvailable, b.dates))]
  {
    var b := s.bookings[bookingId];
    var after := UpdateBooking(s, bookingId, "Complete").value.rooms;
    var expected := s.rooms[b.room := s.rooms[b.room].(notAvailable := Release(s.rooms[b.room].notAvailable, b.dates))];
    assert after.Keys == expected.Keys;
    forall id | id in after ensures after[id] == expected[id] {
    }
  }

  /**
   * Completing a Processing or Checked booking `bookingId` of `roomId` in `s1`
   * restores the rooms of `s`, when `s1` differs from `s` only by that
   * booking's dates having been appended to the room.
   */
  lemma CompleteUndoesReserve(s: Store, s1: Store, roomId: Id, bookingId: Id)
    requires roomId in s.rooms && bookingId in s1.bookings
    requires Active(s1.bookings[bookingId]) && s1.bookings[bookingId].room == roomId
    requires Stamps(s.rooms[roomId].notAvailable) * Stamps(s1.bookings[bookingId].dates) == {}
    requires s1.rooms == s.rooms[roomId := s.rooms[roomId].(notAvailable :=
      Reserve(s.rooms[roomId].notAvailable, s1.bookings[bookingId].dates))]
    ensures UpdateBooking(s1, bookingId, "Complete").Ok?
    ensures UpdateBooking(s1, bookingId, "Complete").value.rooms == s.rooms
  {
    CompleteSucceeds(s1, bookingId);
    CompletedRooms(s1, bookingId);
    RestoreRoom(s.rooms, roomId, s1.bookings[bookingId].dates);
  }

  /** Releasing from one room the dates just reserved in it gives back the same rooms. */
  lemma RestoreRoom(rooms: map<Id, Room>, roomId: Id, dates: seq<Date>)
    requires roomId in rooms
    requires Stamps(rooms[roomId].notAvailable) * Stamps(dates) == {}
    ensures
      var reserved := rooms[roomId := rooms[roomId].(notAvailable := Reserve(rooms[roomId].notAvailable, dates))];
      reserved[roomId := reserved[roomId].(notAvailable := Release(reserved[roomId].notAvailable, dates))] == rooms
  {
    var room := rooms[roomId];
    var booked := room.(notAvailable := Reserve(room.notAvailable, dates));
    ReleaseUndoesReserve(room.notAvailable, dates);
    UpdateTwice(rooms, roomId, booked, booked.(notAvailable := Release(booked.notAvailable, dates)));
  }

  /** Overwriting a key and then writing its original value back changes nothing. */
  lemma UpdateTwice<K, V>(m: map<K, V>, k: K, v1: V, v2: V)
    requires k in m && v2 == m[k]
    ensures m[k := v1][k := v2] == m
  {
    assert m[k := v1][k := v2] == m[k := v2];
  }

  /** Booking a room and then completing that booking leaves every room as it was. */
  lemma BookThenCompleteRestores(
    s: Store, hotelId: Id, roomId: Id, userId: Id, req: BookingRequest, intent: PaymentIntent,
    now: int, dayOf: int -> int, bookingId: Id)
    requires bookingId !in s.bookings
    requires CreateBooking(s, hotelId, roomId, userId, req, intent, now, dayOf, bookingId).Ok?
    ensures UpdateBooking(CreateBooking(s, hotelId, roomId, userId, req, intent, now, dayOf, bookingId).value,
                          bookingId, "Complete").Ok?
    ensures UpdateBooking(CreateBooking(s, hotelId, roomId, userId, req, intent, now, dayOf, bookingId).value,
                          bookingId, "Complete").value.rooms == s.rooms
  {
    var s1 := CreateBooking(s, hotelId, roomId, userId, req, intent, now, dayOf, bookingId).value;
    var before := s.rooms[roomId].notAvailable;
    var b := s1.bookings[bookingId];
    assert b.room == roomId && b.dates == req.dates && Active(b);
    assert s1.rooms[roomId].notAvailable == Reserve(before, req.dates);
    assert s1.rooms == s.rooms[roomId := s.rooms[roomId].(notAvailable := Reserve(before, req.dates))];
    CompleteUndoesReserve(s, s1, roomId, bookingId);
  }

  /** Complete is terminal: no later request changes a completed booking. */
  lemma CompleteIsTerminal(s: Store, bookingId: Id, next: string)
    requires UpdateBooking(s, bookingId, "Complete").Ok?
    ensures UpdateBooking(UpdateBooking(s, bookingId, "Complete").value, bookingId, next).Fail?
  {
    var s1 := UpdateBooking(s, bookingId, "Complete").value;
    assert s1.bookings[bookingId].status == Complete;
  }

  /** Checking in succeeds exactly for a booking still Processing, and moves no date. */
  lemma CheckInOnlyFromProcessing(s: Store, bookingId: Id)
    ensures UpdateBooking(s, bookingId, "Checked").Ok? <==>
      bookingId in s.bookings && s.bookings[bookingId].status == Processing
    ensures UpdateBooking(s, bookingId, "Checked").Ok? ==>
      UpdateBooking(s, bookingId, "Checked").value.rooms == s.rooms
  {
    assert Target("Checked") == Some(Checked);
  }

  /**
   * Completing a booking removes from its room every date carrying one of
   * the booking's timestamps, even one reserved under another spelling, and
   * keeps the others in order.
   */
  lemma CompleteReleasesByTimestamp(s: Store, bookingId: Id, d: Date)
    requires bookingId in s.bookings && Active(s.bookings[bookingId])
    requires s.bookings[bookingId].room in s.rooms
    requires d in s.rooms[s.bookings[bookingId].room].notAvailable
    ensures UpdateBooking(s, bookingId, "Complete").Ok?
    ensures
      var roomId := s.bookings[bookingId].room;
      var after := UpdateBooking(s, bookingId, "Complete").value.rooms[roomId].notAvailable;
      (d in after <==> d.stamp !in Stamps(s.bookings[bookingId].dates))
  {
    CompleteSucceeds(s, bookingId);
    var roomId := s.bookings[bookingId].room;
    var before := s.rooms[roomId].notAvailable;
    var after := Release(before, s.bookings[bookingId].dates);
    if d.stamp !in Stamps(s.bookings[bookingId].dates) {
      assert multiset(after)[d] == multiset(before)[d] > 0;
    }
  }

  /** A room with no dates reserved, in a hotel that lists it. */
  function EmptyRoomStore(): (s: Store)
    ensures "h" in s.hotels && "r" in s.rooms && "r" in s.hotels["h"].rooms
    ensures s.rooms["r"].notAvailable == [] && s.bookings == map[]
  {
    Store(
      map["h" := Hotel("Seaside", "Goa", 100, "", [], ["r"])],
      map["r" := Room(1, "Suite", Double, 50, [], [], "h")],
      map[],
      map[])
  }

  const Midnight: int := 1_893_456_000_000

  /**
   * The duplicate check compares raw values, so one instant sent under two
   * spellings passes it and is reserved twice.
   */
  lemma TwoSpellingsOfOneInstant()
    ensures
      var req := BookingRequest(PaymentInfo("pi", "succeeded"),
        [Date("2030-01-01", Midnight), Date("2030-01-01T00:00:00.000Z", Midnight)], 50, 5550100);
      var r := CreateBooking(EmptyRoomStore(), "h", "r", "u", req, PaymentIntent("succeeded", 5000),
        Midnight - 1, t => t / 86_400_000, "b");
      && r.Ok?
      && r.value.rooms["r"].notAvailable == req.dates
      && |r.value.rooms["r"].notAvailable| == 2
      && Stamps(r.value.rooms["r"].notAvailable) == {Midnight}
  {
    var dates := [Date("2030-01-01", Midnight), Date("2030-01-01T00:00:00.000Z", Midnight)];
    assert dates[0].raw != dates[1].raw by {
      assert |dates[0].raw| != |dates[1].raw|;
    }
    assert Stamps(dates) == {Midnight};
  }
}

=== FILE: consistency.dfy ===
/**
 * The store invariant the admin and booking controllers keep together:
 * rooms, hotels and bookings point at each other, room numbers are unique
 * within a hotel, and a room's `notAvailable` timestamps are exactly the
 * timestamps of the room's bookings that are not Complete, no two of which
 * share a timestamp. Each mutating controller is shown to preserve it.
 */
module Consistency {
  import opened Domain
  import opened Seqs
  import opened Ledger
  import opened Reservations
  import opened Inventory
  import opened Accounts

  /** Every room names an existing hotel that lists it. */
  ghost predicate RoomsLinked(s: Store) {
    forall rid :: rid in s.rooms ==>
      s.rooms[rid].hotel in s.hotels && rid in s.hotels[s.rooms[rid].hotel].rooms
  }

  /** Every id a hotel lists is an existing room that names the hotel. */
  ghost predicate HotelsLinked(s: Store) {
    forall hid, i :: hid in s.hotels && 0 <= i < |s.hotels[hid].rooms| ==>
      s.hotels[hid].rooms[i] in s.rooms && s.rooms[s.hotels[hid].rooms[i]].hotel == hid
  }

  /** Every booking names an existing room, and that room's hotel. */
  ghost predicate BookingsLinked(s: Store) {
    forall bid :: bid in s.bookings ==>
      s.bookings[bid].room in s.rooms && s.bookings[bid].hotel == s.rooms[s.bookings[bid].room].hotel
  }

  /** No two rooms of a hotel share a number. */
  ghost predicate NumbersUnique(s: Store) {
    forall a, b :: a in s.rooms && b in s.rooms && a != b && s.rooms[a].hotel == s.rooms[b].hotel
      ==> s.rooms[a].number != s.rooms[b].number
  }

  /** Booking `bid` is an active booking of room `rid` that holds timestamp `t`. */
  predicate Holds(s: Store, bid: Id, rid: Id, t: int) {
    bid in s.bookings && s.bookings[bid].room == rid && Active(s.bookings[bid])
    && t in Stamps(s.bookings[bid].dates)
  }

  /** Every reserved timestamp is held by an active booking of the room. */
  ghost predicate LedgerBacked(s: Store) {
    forall rid, t :: rid in s.rooms && t in Stamps(s.rooms[rid].notAvailable) ==>
      exists bid :: Holds(s, bid, rid, t)
  }

  /** Every timestamp an active booking holds is reserved in its room. */
  ghost predicate LedgerCovers(s: Store) {
    forall bid, t :: bid in s.bookings && Active(s.bookings[bid]) && t in Stamps(s.bookings[bid].dates) ==>
      s.bookings[bid].room in s.rooms && t in Stamps(s.rooms[s.bookings[bid].room].notAvailable)
  }

  /** Two active bookings of one room hold no timestamp in common. */
  ghost predicate ActiveDisjoint(s: Store) {
    forall a, b :: a in s.bookings && b in s.bookings && a != b
      && s.bookings[a].room == s.bookings[b].room
      && Active(s.bookings[a]) && Active(s.bookings[b])
      ==> Stamps(s.bookings[a].dates) !! Stamps(s.bookings[b].dates)
  }

  ghost predicate Consistent(s: Store) {
    && RoomsLinked(s)
    && HotelsLinked(s)
    && BookingsLinked(s)
    && NumbersUnique(s)
    && LedgerBacked(s)
    && LedgerCovers(s)
    && ActiveDisjoint(s)
  }

  /** The store with nothing in it is consistent. */
  lemma EmptyConsistent()
    ensures Consistent(Store(map[], map[], map[], map[]))
  {
  }

  // ---------------------------------------------------------------- createBooking

  /** `s'` is `s` with booking `b`, stored as `bookingId`, reserving its dates in its room. */
  ghost predicate Reserved(s: Store, s': Store, bookingId: Id, b: Booking) {
    && bookingId !in s.bookings
    && b.room in s.rooms
    && Active(b)
    && Stamps(s.rooms[b.room].notAvailable) !! Stamps(b.dates)
    && s'.hotels == s.hotels
    && s'.rooms.Keys == s.rooms.Keys
    && (forall id :: id in s.rooms && id != b.room ==> s'.rooms[id] == s.rooms[id])
    && s'.rooms[b.room] == s.rooms[b.room].(notAvailable := s'.rooms[b.room].notAvailable)
    && Stamps(s'.rooms[b.room].notAvailable) == Stamps(s.rooms[b.room].notAvailable) + Stamps(b.dates)
    && s'.bookings == s.bookings[bookingId := b]
  }

  lemma ReservedKeepsBacking(s: Store, s': Store, bookingId: Id, b: Booking)
    requires Reserved(s, s', bookingId, b)
    requires LedgerBacked(s)
    ensures LedgerBacked(s')
  {
    forall rid, t | rid in s'.rooms && t in Stamps(s'.rooms[rid].notAvailable)
      ensures exists bid :: Holds(s', bid, rid, t)
    {
      if rid == b.room && t in Stamps(b.dates) {
        assert Holds(s', bookingId, rid, t);
      } else {
        assert t in Stamps(s.rooms[rid].notAvailable);
        var bid :| Holds(s, bid, rid, t);
        assert Holds(s', bid, rid, t);
      }
    }
  }

  lemma ReservedKeepsCover(s: Store, s': Store, bookingId: Id, b: Booking)
    requires Reserved(s, s', bookingId, b)
    requires LedgerCovers(s)
    ensures LedgerCovers(s')
  {
  }

  lemma ReservedKeepsDisjoint(s: Store, s': Store, bookingId: Id, b: Booking)
    requires Reserved(s, s', bookingId, b)
    requires LedgerCovers(s) && ActiveDisjoint(s)
    ensures ActiveDisjoint(s')
  {
    forall x, y | x in s'.bookings && y in s'.bookings && x != y
      && s'.bookings[x].room == s'.bookings[y].room
      && Active(s'.bookings[x]) && Active(s'.bookings[y])
      ensures Stamps(s'.bookings[x].dates) !! Stamps(s'.bookings[y].dates)
    {
      if x == bookingId || y == bookingId {
        var other := if x == bookingId then y else x;
        forall t | t in Stamps(s.bookings[other].dates) ensures t !in Stamps(b.dates) {
          assert t in Stamps(s.rooms[b.room].notAvailable);
        }
      }
    }
  }

  /** A reservation changes no room's hotel or number. */
  lemma ReservedKeepsRoomFields(s: Store, s': Store, bookingId: Id, b: Booking)
    requires Reserved(s, s', bookingId, b)
    ensures forall id :: id in s'.rooms <==> id in s.rooms
    ensures forall id :: id in s.rooms ==>
      s'.rooms[id].hotel == s.rooms[id].hotel && s'.rooms[id].number == s.rooms[id].number
  {
    forall id | id in s.rooms
      ensures s'.rooms[id].hotel == s.rooms[id].hotel && s'.rooms[id].number == s.rooms[id].number
    {
      if id == b.room {
        assert s'.rooms[id] == s.rooms[id].(notAvailable := s'.rooms[id].notAvailable);
      }
    }
  }

  lemma ReservedKeepsLinks(s: Store, s': Store, bookingId: Id, b: Booking)
    requires Reserved(s, s', bookingId, b)
    requires b.hotel == s.rooms[b.room].hotel
    requires RoomsLinked(s) && HotelsLinked(s) && BookingsLinked(s) && NumbersUnique(s)
    ensures RoomsLinked(s') && HotelsLinked(s') && BookingsLinked(s') && NumbersUnique(s')
  {
    ReservedKeepsRoomFields(s, s', bookingId, b);
    forall rid | rid in s'.rooms
      ensures s'.rooms[rid].hotel in s'.hotels && rid in s'.hotels[s'.rooms[rid].hotel].rooms
    {
      assert s'.rooms[rid].hotel == s.rooms[rid].hotel;
    }
    forall hid, i | hid in s'.hotels && 0 <= i < |s'.hotels[hid].rooms|
      ensures s'.hotels[hid].rooms[i] in s'.rooms && s'.rooms[s'.hotels[hid].rooms[i]].hotel == hid
    {
      assert s.hotels[hid].rooms[i] in s.rooms;
    }
    forall bid | bid in s'.bookings
      ensures s'.bookings[bid].room in s'.rooms
        && s'.bookings[bid].hotel == s'.rooms[s'.bookings[bid].room].hotel
    {
      if bid != bookingId {
        assert s'.bookings[bid] == s.bookings[bid];
      }
    }
    forall x, y | x in s'.rooms && y in s'.rooms && x != y && s'.rooms[x].hotel == s'.rooms[y].hotel
      ensures s'.rooms[x].number != s'.rooms[y].number
    {
      assert s.rooms[x].hotel == s.rooms[y].hotel;
    }
  }

  /** `createBooking` keeps the store consistent. */
  lemma CreateBookingPreserves(
    s: Store, hotelId: Id, roomId: Id, userId: Id, req: BookingRequest,
    intent: PaymentIntent, now: int, dayOf: int -> int, bookingId: Id)
    requires bookingId !in s.bookings
    requires Consistent(s)
    requires CreateBooking(s, hotelId, roomId, userId, req, intent, now, dayOf, bookingId).Ok?
    ensures Consistent(CreateBooking(s, hotelId, roomId, userId, req, intent, now, dayOf, bookingId).value)
  {
    var s' := CreateBooking(s, hotelId, roomId, userId, req, intent, now, dayOf, bookingId).value;
    var b := NewBooking(hotelId, roomId, userId, req, now);
    var i :| 0 <= i < |s.hotels[hotelId].rooms| && s.hotels[hotelId].rooms[i] == roomId;
    assert s.rooms[roomId].hotel == hotelId;
    assert Reserved(s, s', bookingId, b);
    ReservedKeepsBacking(s, s', bookingId, b);
    ReservedKeepsCover(s, s', bookingId, b);
    ReservedKeepsDisjoint(s, s', bookingId, b);
    ReservedKeepsLinks(s, s', bookingId, b);
  }

  // ---------------------------------------------------------------- updateBooking

  /**
   * `s'` is `s` with booking `bookingId` moved on to `to`, and with the rooms
   * changed only in their `notAvailable` lists.
   */
  ghost predicate StatusMoved(s: Store, s': Store, bookingId: Id, to: Status) {
    && bookingId in s.bookings
    && s'.bookings == s.bookings[bookingId := s.bookings[bookingId].(status := to)]
    && s'.hotels == s.hotels
    && s'.rooms.Keys == s.rooms.Keys
    && (forall id :: id in s.rooms ==>
          s'.rooms[id] == s.rooms[id].(notAvailable := s'.rooms[id].notAvailable))
  }

  lemma StatusMovedKeepsLinks(s: Store, s': Store, bookingId: Id, to: Status)
    requires StatusMoved(s, s', bookingId, to)
    requires RoomsLinked(s) && HotelsLinked(s) && BookingsLinked(s) && NumbersUnique(s)
    ensures RoomsLinked(s') && HotelsLinked(s') && BookingsLinked(s') && NumbersUnique(s')
  {
    forall id | id in s.rooms
      ensures s'.rooms[id].hotel == s.rooms[id].hotel && s'.rooms[id].number == s.rooms[id].number
    {
      assert s'.rooms[id] == s.rooms[id].(notAvailable := s'.rooms[id].notAvailable);
    }
    forall rid | rid in s'.rooms
      ensures s'.rooms[rid].hotel in s'.hotels && rid in s'.hotels[s'.rooms[rid].hotel].rooms
    {
      assert s'.rooms[rid].hotel == s.rooms[rid].hotel;
    }
    forall hid, i | hid in s'.hotels && 0 <= i < |s'.hotels[hid].rooms|
      ensures s'.hotels[hid].rooms[i] in s'.rooms && s'.rooms[s'.hotels[hid].rooms[i]].hotel == hid
    {
      assert s.hotels[hid].rooms[i] in s.rooms;
    }
    forall bid | bid in s'.bookings
      ensures s'.bookings[bid].room in s'.rooms
        && s'.bookings[bid].hotel == s'.rooms[s'.bookings[bid].room].hotel
    {
      assert s'.bookings[bid].room == s.bookings[bid].room && s'.bookings[bid].hotel == s.bookings[bid].hotel;
    }
    forall x, y | x in s'.rooms && y in s'.rooms && x != y && s'.rooms[x].hotel == s'.rooms[y].hotel
      ensures s'.rooms[x].number != s'.rooms[y].number
    {
      assert s.rooms[x].hotel == s.rooms[y].hotel;
    }
  }

  /** Checking in keeps the ledger: the booking stays active and no room changes. */
  lemma CheckInKeepsLedger(s: Store, s': Store, bookingId: Id)
    requires StatusMoved(s, s', bookingId, Checked)
    requires s'.rooms == s.rooms
    requires Active(s.bookings[bookingId])
    requires LedgerBacked(s) && LedgerCovers(s) && ActiveDisjoint(s)
    ensures LedgerBacked(s') && LedgerCovers(s') && ActiveDisjoint(s')
  {
    forall bid, rid, t | Holds(s, bid, rid, t) ensures Holds(s', bid, rid, t) {
    }
    forall rid, t | rid in s'.rooms && t in Stamps(s'.rooms[rid].notAvailable)
      ensures exists bid :: Holds(s', bid, rid, t)
    {
      var bid :| Holds(s, bid, rid, t);
      assert Holds(s', bid, rid, t);
    }
  }

  /**
   * Completing a booking keeps the ledger: its room gives up exactly the
   * booking's timestamps, which no other active booking of the room holds.
   */
  lemma CompleteKeepsLedger(s: Store, s': Store, bookingId: Id)
    requires StatusMoved(s, s', bookingId, Complete)
    requires Active(s.bookings[bookingId])
    requires s.bookings[bookingId].room in s.rooms
    requires forall id :: id in s.rooms && id != s.bookings[bookingId].room ==> s'.rooms[id] == s.rooms[id]
    requires Stamps(s'.rooms[s.bookings[bookingId].room].notAvailable)
      == Stamps(s.rooms[s.bookings[bookingId].room].notAvailable) - Stamps(s.bookings[bookingId].dates)
    requires LedgerBacked(s) && LedgerCovers(s) && ActiveDisjoint(s)
    ensures LedgerBacked(s') && LedgerCovers(s') && ActiveDisjoint(s')
  {
    var b := s.bookings[bookingId];
    forall rid, t | rid in s'.rooms && t in Stamps(s'.rooms[rid].notAvailable)
      ensures exists bid :: Holds(s', bid, rid, t)
    {
      assert t in Stamps(s.rooms[rid].notAvailable);
      var bid :| Holds(s, bid, rid, t);
      assert bid != bookingId;
      assert Holds(s', bid, rid, t);
    }
    forall bid, t | bid in s'.bookings && Active(s'.bookings[bid]) && t in Stamps(s'.bookings[bid].dates)
      ensures s'.bookings[bid].room in s'.rooms && t in Stamps(s'.rooms[s'.bookings[bid].room].notAvailable)
    {
      assert bid != bookingId && s'.bookings[bid] == s.bookings[bid];
      var rid := s.bookings[bid].room;
      assert t in Stamps(s.rooms[rid].notAvailable);
      if rid == b.room {
        assert Stamps(s.bookings[bid].dates) !! Stamps(b.dates);
      }
    }
    forall x, y | x in s'.bookings && y in s'.bookings && x != y
      && s'.bookings[x].room == s'.bookings[y].room
      && Active(s'.bookings[x]) && Active(s'.bookings[y])
      ensures Stamps(s'.bookings[x].dates) !! Stamps(s'.bookings[y].dates)
    {
      assert s'.bookings[x] == s.bookings[x] && s'.bookings[y] == s.bookings[y];
    }
  }

  /** `updateBooking` keeps the store consistent. */
  lemma UpdateBookingPreserves(s: Store, bookingId: Id, target: string)
    requires Consistent(s)
    requires UpdateBooking(s, bookingId, target).Ok?
    ensures Consistent(UpdateBooking(s, bookingId, target).value)
  {
    var s' := UpdateBooking(s, bookingId, target).value;
    var to := Target(target).value;
    assert StatusMoved(s, s', bookingId, to);
    StatusMovedKeepsLinks(s, s', bookingId, to);
    if target == "Complete" {
      var b := s.bookings[bookingId];
      assert Release(s.rooms[b.room].notAvailable, b.dates) == s'.rooms[b.room].notAvailable;
      CompleteKeepsLedger(s, s', bookingId);
    } else {
      CheckInKeepsLedger(s, s', bookingId);
    }
  }

  // ---------------------------------------------------------------- room and hotel administration

  /** `createRoom` keeps the store consistent: the new room is linked both ways and holds no dates. */
  lemma CreateRoomPreserves(s: Store, hotelId: Id, form: RoomForm, roomId: Id)
    requires roomId !in s.rooms
    requires Consistent(s)
    requires CreateRoom(s, hotelId, form, roomId).Ok?
    ensures Consistent(CreateRoom(s, hotelId, form, roomId).value)
  {
    CreateRoomKeepsLinks(s, hotelId, form, roomId);
    CreateRoomKeepsNumbers(s, hotelId, form, roomId);
    CreateRoomKeepsLedger(s, hotelId, form, roomId);
  }

  lemma CreateRoomKeepsLinks(s: Store, hotelId: Id, form: RoomForm, roomId: Id)
    requires roomId !in s.rooms
    requires Consistent(s)
    requires CreateRoom(s, hotelId, form, roomId).Ok?
    ensures RoomsLinked(CreateRoom(s, hotelId, form, roomId).value)
    ensures HotelsLinked(CreateRoom(s, hotelId, form, roomId).value)
    ensures BookingsLinked(CreateRoom(s, hotelId, form, roomId).value)
  {
    var s' := CreateRoom(s, hotelId, form, roomId).value;
    var listed := s.hotels[hotelId].rooms;
    assert s'.hotels[hotelId].rooms == listed + [roomId];
    forall rid | rid in s'.rooms
      ensures s'.rooms[rid].hotel in s'.hotels && rid in s'.hotels[s'.rooms[rid].hotel].rooms
    {
      if rid != roomId && s.rooms[rid].hotel == hotelId {
        assert rid in listed;
      }
    }
    forall hid, i | hid in s'.hotels && 0 <= i < |s'.hotels[hid].rooms|
      ensures s'.hotels[hid].rooms[i] in s'.rooms && s'.rooms[s'.hotels[hid].rooms[i]].hotel == hid
    {
      if hid == hotelId && i < |listed| {
        assert s'.hotels[hid].rooms[i] == listed[i];
      }
    }
    forall bid | bid in s'.bookings
      ensures s'.bookings[bid].room in s'.rooms
        && s'.bookings[bid].hotel == s'.rooms[s'.bookings[bid].room].hotel
    {
      assert s.bookings[bid].room in s.rooms;
    }
  }

  lemma CreateRoomKeepsNumbers(s: Store, hotelId: Id, form: RoomForm, roomId: Id)
    requires roomId !in s.rooms
    requires NumbersUnique(s)
    requires CreateRoom(s, hotelId, form, roomId).Ok?
    ensures NumbersUnique(CreateRoom(s, hotelId, form, roomId).value)
  {
    var s' := CreateRoom(s, hotelId, form, roomId).value;
    forall x, y | x in s'.rooms && y in s'.rooms && x != y && s'.rooms[x].hotel == s'.rooms[y].hotel
      ensures s'.rooms[x].number != s'.rooms[y].number
    {
      if x == roomId {
        assert !(s.rooms[y].hotel == hotelId && s.rooms[y].number == form.number);
      } else if y == roomId {
        assert !(s.rooms[x].hotel == hotelId && s.rooms[x].number == form.number);
      }
    }
  }

  lemma CreateRoomKeepsLedger(s: Store, hotelId: Id, form: RoomForm, roomId: Id)
    requires roomId !in s.rooms
    requires Consistent(s)
    requires CreateRoom(s, hotelId, form, roomId).Ok?
    ensures LedgerBacked(CreateRoom(s, hotelId, form, roomId).value)
    ensures LedgerCovers(CreateRoom(s, hotelId, form, roomId).value)
    ensures ActiveDisjoint(CreateRoom(s, hotelId, form, roomId).value)
  {
    var s' := CreateRoom(s, hotelId, form, roomId).value;
    assert Stamps(s'.rooms[roomId].notAvailable) == {};
    forall rid, t | rid in s'.rooms && t in Stamps(s'.rooms[rid].notAvailable)
      ensures exists bid :: Holds(s', bid, rid, t)
    {
      var bid :| Holds(s, bid, rid, t);
      assert Holds(s', bid, rid, t);
    }
    forall bid, t | bid in s'.bookings && Active(s'.bookings[bid]) && t in Stamps(s'.bookings[bid].dates)
      ensures s'.bookings[bid].room in s'.rooms && t in Stamps(s'.rooms[s'.bookings[bid].room].notAvailable)
    {
      assert s.bookings[bid].room in s.rooms;
    }
  }

  /** `updateRoom` keeps the store consistent: it never touches a link, a number or a ledger. */
  lemma UpdateRoomPreserves(s: Store, roomId: Id, upd: RoomUpdate)
    requires Consistent(s)
    requires UpdateRoom(s, roomId, upd).Ok?
    ensures Consistent(UpdateRoom(s, roomId, upd).value)
  {
    var s' := UpdateRoom(s, roomId, upd).value;
    forall id | id in s.rooms
      ensures && s'.rooms[id].hotel == s.rooms[id].hotel && s'.rooms[id].number == s.rooms[id].number
              && s'.rooms[id].notAvailable == s.rooms[id].notAvailable
    {
    }
    forall rid, t | rid in s'.rooms && t in Stamps(s'.rooms[rid].notAvailable)
      ensures exists bid :: Holds(s', bid, rid, t)
    {
      var bid :| Holds(s, bid, rid, t);
      assert Holds(s', bid, rid, t);
    }
  }

  /**
   * `s'` keeps some rooms and some bookings of `s`, unchanged, and keeps a
   * booking exactly when it keeps the booking's room.
   */
  ghost predicate Pruned(s: Store, s': Store) {
    && (forall id :: id in s'.rooms ==> id in s.rooms && s'.rooms[id] == s.rooms[id])
    && (forall id :: id in s'.bookings ==> id in s.bookings && s'.bookings[id] == s.bookings[id])
    && (forall id :: id in s'.bookings ==> s'.bookings[id].room in s'.rooms)
    && (forall id :: id in s.bookings && s.bookings[id].room in s'.rooms ==> id in s'.bookings)
  }

  /** Pruning keeps every part of the invariant that does not involve hotels. */
  lemma PrunedKeepsLedger(s: Store, s': Store)
    requires Pruned(s, s')
    requires Consistent(s)
    ensures BookingsLinked(s') && NumbersUnique(s')
    ensures LedgerBacked(s') && LedgerCovers(s') && ActiveDisjoint(s')
  {
    forall rid, t | rid in s'.rooms && t in Stamps(s'.rooms[rid].notAvailable)
      ensures exists bid :: Holds(s', bid, rid, t)
    {
      var bid :| Holds(s, bid, rid, t);
      assert Holds(s', bid, rid, t);
    }
    forall bid, t | bid in s'.bookings && Active(s'.bookings[bid]) && t in Stamps(s'.bookings[bid].dates)
      ensures s'.bookings[bid].room in s'.rooms && t in Stamps(s'.rooms[s'.bookings[bid].room].notAvailable)
    {
      assert s'.rooms[s.bookings[bid].room] == s.rooms[s.bookings[bid].room];
    }
  }

  /** `deleteRoom` keeps the store consistent: the room leaves its hotel's list, with its bookings. */
  lemma DeleteRoomPreserves(s: Store, roomId: Id)
    requires Consistent(s)
    requires DeleteRoom(s, roomId).Ok?
    ensures Consistent(DeleteRoom(s, roomId).value)
  {
    var s' := DeleteRoom(s, roomId).value;
    var hotelId := s.rooms[roomId].hotel;
    var listed := s.hotels[hotelId].rooms;
    var unlinked := Unlink(listed, roomId);
    assert s'.hotels[hotelId].rooms == unlinked;
    forall id | id in s'.bookings ensures s'.bookings[id].room in s'.rooms {
      assert s.bookings[id].room in s.rooms;
    }
    assert Pruned(s, s');
    PrunedKeepsLedger(s, s');
    forall rid | rid in s'.rooms
      ensures s'.rooms[rid].hotel in s'.hotels && rid in s'.hotels[s'.rooms[rid].hotel].rooms
    {
      if s.rooms[rid].hotel == hotelId {
        assert multiset(unlinked)[rid] == multiset(listed)[rid];
      }
    }
    forall hid, i | hid in s'.hotels && 0 <= i < |s'.hotels[hid].rooms|
      ensures s'.hotels[hid].rooms[i] in s'.rooms && s'.rooms[s'.hotels[hid].rooms[i]].hotel == hid
    {
      var x := s'.hotels[hid].rooms[i];
      if hid == hotelId {
        assert x in unlinked && x != roomId;
        assert multiset(unlinked)[x] == multiset(listed)[x];
        var k :| 0 <= k < |listed| && listed[k] == x;
      } else {
        assert x == s.hotels[hid].rooms[i];
        assert s.rooms[x].hotel == hid;
      }
    }
  }

  /** `deleteHotel` keeps the store consistent: whatever pointed at the hotel goes with it. */
  lemma DeleteHotelPreserves(s: Store, hotelId: Id)
    requires Consistent(s)
    requires DeleteHotel(s, hotelId).Ok?
    ensures Consistent(DeleteHotel(s, hotelId).value)
  {
    var s' := DeleteHotel(s, hotelId).value;
    var listed := s.hotels[hotelId].rooms;
    // a room survives exactly when it belongs to another hotel
    forall rid | rid in s.rooms ensures rid in s'.rooms <==> s.rooms[rid].hotel != hotelId {
      if rid in listed {
        var k :| 0 <= k < |listed| && listed[k] == rid;
      }
    }
    forall id | id in s'.bookings ensures s'.bookings[id].room in s'.rooms {
      assert s.bookings[id].room in s.rooms;
    }
    forall id | id in s.bookings && s.bookings[id].room in s'.rooms ensures id in s'.bookings {
      assert s.bookings[id].room in s.rooms;
    }
    assert Pruned(s, s');
    PrunedKeepsLedger(s, s');
    forall hid, i | hid in s'.hotels && 0 <= i < |s'.hotels[hid].rooms|
      ensures s'.hotels[hid].rooms[i] in s'.rooms && s'.rooms[s'.hotels[hid].rooms[i]].hotel == hid
    {
      assert s.hotels[hid].rooms[i] in s.rooms;
    }
  }

  // ---------------------------------------------------------------- deleteUser

  /**
   * `s'` is `s` without the bookings of user `userId`, its rooms having
   * given up exactly the timestamps those bookings held while active.
   */
  ghost predicate ReleasedFor(s: Store, s': Store, userId: Id) {
    && s'.hotels == s.hotels
    && s'.rooms.Keys == s.rooms.Keys
    && (forall id :: id in s.rooms ==> s'.rooms[id] == s.rooms[id].(notAvailable := s'.rooms[id].notAvailable))
    && (forall id :: id in s.rooms ==>
          Stamps(s'.rooms[id].notAvailable) == Stamps(s.rooms[id].notAvailable) - HeldBy(s, userId, id))
    && (forall id :: id in s'.bookings <==> id in s.bookings && s.bookings[id].user != userId)
    && (forall id :: id in s'.bookings ==> s'.bookings[id] == s.bookings[id])
  }

  lemma ReleasedForKeepsLinks(s: Store, s': Store, userId: Id)
    requires ReleasedFor(s, s', userId)
    requires RoomsLinked(s) && HotelsLinked(s) && BookingsLinked(s) && NumbersUnique(s)
    ensures RoomsLinked(s') && HotelsLinked(s') && BookingsLinked(s') && NumbersUnique(s')
  {
    forall id | id in s.rooms
      ensures s'.rooms[id].hotel == s.rooms[id].hotel && s'.rooms[id].number == s.rooms[id].number
    {
      assert s'.rooms[id] == s.rooms[id].(notAvailable := s'.rooms[id].notAvailable);
    }
    forall rid | rid in s'.rooms
      ensures s'.rooms[rid].hotel in s'.hotels && rid in s'.hotels[s'.rooms[rid].hotel].rooms
    {
      assert s'.rooms[rid].hotel == s.rooms[rid].hotel;
    }
    forall hid, i | hid in s'.hotels && 0 <= i < |s'.hotels[hid].rooms|
      ensures s'.hotels[hid].rooms[i] in s'.rooms && s'.rooms[s'.hotels[hid].rooms[i]].hotel == hid
    {
      assert s.hotels[hid].rooms[i] in s.rooms;
    }
    forall bid | bid in s'.bookings
      ensures s'.bookings[bid].room in s'.rooms
        && s'.bookings[bid].hotel == s'.rooms[s'.bookings[bid].room].hotel
    {
      assert s.bookings[bid].room in s.rooms;
    }
    forall x, y | x in s'.rooms && y in s'.rooms && x != y && s'.rooms[x].hotel == s'.rooms[y].hotel
      ensures s'.rooms[x].number != s'.rooms[y].number
    {
      assert s.rooms[x].hotel == s.rooms[y].hotel;
    }
  }

  lemma ReleasedForKeepsLedger(s: Store, s': Store, userId: Id)
    requires ReleasedFor(s, s', userId)
    requires LedgerBacked(s) && LedgerCovers(s) && ActiveDisjoint(s)
    ensures LedgerBacked(s') && LedgerCovers(s') && ActiveDisjoint(s')
  {
    forall rid, t | rid in s'.rooms && t in Stamps(s'.rooms[rid].notAvailable)
      ensures exists bid :: Holds(s', bid, rid, t)
    {
      assert t in Stamps(s.rooms[rid].notAvailable) && t !in HeldBy(s, userId, rid);
      var bid :| Holds(s, bid, rid, t);
      assert s.bookings[bid].user != userId;
      assert Holds(s', bid, rid, t);
    }
    forall bid, t | bid in s'.bookings && Active(s'.bookings[bid]) && t in Stamps(s'.bookings[bid].dates)
      ensures s'.bookings[bid].room in s'.rooms && t in Stamps(s'.rooms[s'.bookings[bid].room].notAvailable)
    {
      var b := s.bookings[bid];
      assert s'.bookings[bid] == b && b.user != userId;
      assert t in Stamps(s.rooms[b.room].notAvailable);
      if t in HeldBy(s, userId, b.room) {
        var other :| other in s.bookings && s.bookings[other].user == userId && s.bookings[other].room == b.room
          && Active(s.bookings[other]) && t in Stamps(s.bookings[other].dates);
        assert false;
      }
    }
    forall x, y | x in s'.bookings && y in s'.bookings && x != y
      && s'.bookings[x].room == s'.bookings[y].room
      && Active(s'.bookings[x]) && Active(s'.bookings[y])
      ensures Stamps(s'.bookings[x].dates) !! Stamps(s'.bookings[y].dates)
    {
      assert s'.bookings[x] == s.bookings[x] && s'.bookings[y] == s.bookings[y];
    }
  }

  /** The corrected `deleteUser` keeps the store consistent. */
  lemma DeleteUserReleasingPreserves(s: Store, userId: Id)
    requires Consistent(s)
    ensures Consistent(DeleteUserReleasing(s, userId))
  {
    var s' := DeleteUserReleasing(s, userId);
    assert s'.bookings == DeleteUser(s, userId).bookings;
    assert ReleasedFor(s, s', userId);
    ReleasedForKeepsLinks(s, s', userId);
    ReleasedForKeepsLedger(s, s', userId);
  }

  /**
   * `deleteUser` as written breaks the invariant whenever the user holds a
   * date: the room keeps the timestamp, and no remaining booking holds it.
   */
  lemma DeleteUserOrphansDates(s: Store, userId: Id, bookingId: Id)
    requires Consistent(s)
    requires bookingId in s.bookings && s.bookings[bookingId].user == userId
    requires Active(s.bookings[bookingId]) && |s.bookings[bookingId].dates| > 0
    ensures !LedgerBacked(DeleteUser(s, userId))
  {
    var b := s.bookings[bookingId];
    var s' := DeleteUser(s, userId);
    var t := b.dates[0].stamp;
    assert t in Stamps(b.dates);
    assert b.room in s'.rooms && t in Stamps(s'.rooms[b.room].notAvailable);
    if other :| Holds(s', other, b.room, t) {
      assert false;
    }
  }

  /** One hotel "h" with one room "r", which user "u" has booked for one day as booking "b". */
  function OneBookingStore(): (s: Store)
    ensures s.hotels.Keys == {"h"} && s.rooms.Keys == {"r"} && s.bookings.Keys == {"b"}
    ensures s.hotels["h"].rooms == ["r"] && s.rooms["r"].hotel == "h"
    ensures s.bookings["b"].room == "r" && s.bookings["b"].hotel == "h" && s.bookings["b"].user == "u"
    ensures Active(s.bookings["b"]) && |s.bookings["b"].dates| == 1
    ensures s.rooms["r"].notAvailable == s.bookings["b"].dates
  {
    var day := Date("2030-01-01", 1_893_456_000_000);
    Store(
      map["h" := Hotel("Seaside", "Goa", 100, "", [], ["r"])],
      map["r" := Room(1, "Suite", Double, 50, [], [day], "h")],
      map["b" := Booking("u", "h", "r", [day], 50, 5550100, 0, PaymentInfo("pi", "succeeded"), Processing)],
      map["u" := User("U", "u@example.com", "password", "user")])
  }

  lemma OneBookingStoreConsistent()
    ensures Consistent(OneBookingStore())
  {
    OneBookingStoreLinked();
    OneBookingStoreLedger();
  }

  lemma OneBookingStoreLinked()
    ensures var s := OneBookingStore(); RoomsLinked(s) && HotelsLinked(s) && BookingsLinked(s) && NumbersUnique(s)
  {
    var s := OneBookingStore();
    forall hid, i | hid in s.hotels && 0 <= i < |s.hotels[hid].rooms|
      ensures s.hotels[hid].rooms[i] in s.rooms && s.rooms[s.hotels[hid].rooms[i]].hotel == hid
    {
      assert hid == "h" && i == 0;
    }
  }

  lemma OneBookingStoreLedger()
    ensures var s := OneBookingStore(); LedgerBacked(s) && LedgerCovers(s) && ActiveDisjoint(s)
  {
    var s := OneBookingStore();
    forall rid, t | rid in s.rooms && t in Stamps(s.rooms[rid].notAvailable)
      ensures exists bid :: Holds(s, bid, rid, t)
    {
      assert rid == "r";
      assert Holds(s, "b", rid, t);
    }
    forall bid, t | bid in s.bookings && Active(s.bookings[bid]) && t in Stamps(s.bookings[bid].dates)
      ensures s.bookings[bid].room in s.rooms && t in Stamps(s.rooms[s.bookings[bid].room].notAvailable)
    {
      assert bid == "b";
    }
  }

  /** The user of the one-booking store is the witness: deleting them breaks consistency. */
  lemma DeleteUserOrphansOneBooking()
    ensures Consistent(OneBookingStore())
    ensures !Consistent(DeleteUser(OneBookingStore(), "u"))
  {
    OneBookingStoreConsistent();
    DeleteUserOrphansDates(OneBookingStore(), "u", "b");
  }

  /** The corrected `deleteUser` gives the day back to the room. */
  lemma DeleteUserReleasingFreesDates()
    ensures Stamps(DeleteUserReleasing(OneBookingStore(), "u").rooms["r"].notAvailable) == {}
  {
    var s := OneBookingStore();
    forall t | t in Stamps(s.rooms["r"].notAvailable) ensures t in HeldBy(s, "u", "r") {
      assert Holds(s, "b", "r", t);
    }
  }
}

=== FILE: dashboard.dfy ===
/**
 * `generateMonthlyBookingCount` (frontend/src/screens/Dashboard.js): the
 * number of bookings created in each calendar month, keyed by month name
 * in calendar order. The month of a timestamp depends on the browser's
 * time zone, so it is the parameter `monthOf`.
 */
module Dashboard {

  newtype Month = m: int | 0 <= m < 12

  const MonthNames: seq<string> := [
    "January", "February", "March", "April", "May", "June",
    "July", "August", "September", "October", "November", "December"]

  datatype MonthCount = MonthCount(name: string, count: nat)

  /** The months of the dates, in order. */
  function Months(dates: seq<int>, monthOf: int -> Month): (r: seq<Month>)
    ensures |r| == |dates|
    ensures forall i :: 0 <= i < |dates| ==> r[i] == monthOf(dates[i])
  {
    seq(|dates|, i requires 0 <= i < |dates| => monthOf(dates[i]))
  }

  /** The total of the counts of a histogram. */
  function Total(counts: seq<MonthCount>): nat {
    if |counts| == 0 then 0 else counts[0].count + Total(counts[1..])
  }

  /** How many elements of `ms` are month `k` or later. */
  function CountFrom(ms: multiset<Month>, k: int): nat
    requires 0 <= k <= 12
    decreases 12 - k
  {
    if k == 12 then 0 else ms[k as Month] + CountFrom(ms, k + 1)
  }

  /** Adding month `x` to the multiset adds one to the count from every `k <= x`. */
  lemma {:induction false} CountFromAdd(ms: multiset<Month>, x: Month, k: int)
    requires 0 <= k <= 12
    ensures CountFrom(ms + multiset{x}, k) == CountFrom(ms, k) + (if k <= x as int then 1 else 0)
    decreases 12 - k
  {
    if k < 12 {
      CountFromAdd(ms, x, k + 1);
    }
  }

  /** Summing the twelve month counts counts every element once. */
  lemma {:induction false} CountFromIsSize(ms: multiset<Month>)
    ensures CountFrom(ms, 0) == |ms|
    decreases |ms|
  {
    if ms == multiset{} {
      CountFromEmpty(0);
    } else {
      var x :| x in ms;
      var rest := ms - multiset{x};
      assert ms == rest + multiset{x};
      CountFromIsSize(rest);
      CountFromAdd(rest, x, 0);
    }
  }

  lemma {:induction false} CountFromEmpty(k: int)
    requires 0 <= k <= 12
    ensures CountFrom(multiset{}, k) == 0
    decreases 12 - k
  {
    if k < 12 {
      CountFromEmpty(k + 1);
    }
  }

  /** A histogram whose buckets `k..` hold the counts of `ms` totals the count from `k`. */
  lemma {:induction false} TotalIsCountFrom(counts: seq<MonthCount>, ms: multiset<Month>, k: int)
    requires |counts| == 12 && 0 <= k <= 12
    requires forall m: Month :: counts[m].count == ms[m]
    ensures Total(counts[k..]) == CountFrom(ms, k)
    decreases 12 - k
  {
    if k < 12 {
      TotalIsCountFrom(counts, ms, k + 1);
      assert counts[k..][1..] == counts[k + 1..];
      assert counts[k].count == ms[k as Month];
    }
  }

  /**
   * Starts every month at zero, then adds one to the month of each date.
   * Each count is how many dates fall in that month, whatever their order,
   * and the counts add up to the number of dates.
   */
  method MonthlyBookingCount(dates: seq<int>, monthOf: int -> Month) returns (counts: seq<MonthCount>)
    ensures |counts| == 12
    ensures forall m :: 0 <= m < 12 ==> counts[m].name == MonthNames[m]
    ensures forall m: Month :: counts[m].count == multiset(Months(dates, monthOf))[m]
    ensures Total(counts) == |dates|
  {
    counts := seq(12, m requires 0 <= m < 12 => MonthCount(MonthNames[m], 0));
    var i := 0;
    while i < |dates|
      invariant 0 <= i <= |dates|
      invariant |counts| == 12
      invariant forall m :: 0 <= m < 12 ==> counts[m].name == MonthNames[m]
      invariant forall m: Month :: counts[m].count == multiset(Months(dates[..i], monthOf))[m]
    {
      var month := monthOf(dates[i]);
      assert Months(dates[..i + 1], monthOf) == Months(dates[..i], monthOf) + [month];
      counts := counts[month as int := counts[month].(count := counts[month].count + 1)];
      i := i + 1;
    }
    assert dates[..i] == dates;
    var ms := multiset(Months(dates, monthOf));
    TotalIsCountFrom(counts, ms, 0);
    CountFromIsSize(ms);
    assert counts[0..] == counts;
  }

  lemma MonthsAppend(a: seq<int>, b: seq<int>, monthOf: int -> Month)
    ensures Months(a + b, monthOf) == Months(a, monthOf) + Months(b, monthOf)
  {
  }

  /** One more date adds one to its own month and leaves the other months alone. */
  lemma OneMoreDate(dates: seq<int>, date: int, monthOf: int -> Month)
    ensures forall m: Month ::
      (multiset(Months(dates + [date], monthOf))[m]
       == multiset(Months(dates, monthOf))[m] + (if m == monthOf(date) then 1 else 0))
  {
    MonthsAppend(dates, [date], monthOf);
  }

  /** The months of two orderings of the same dates are the same multiset. */
  lemma {:induction false} MonthsPermutation(a: seq<int>, b: seq<int>, monthOf: int -> Month)
    requires multiset(a) == multiset(b)
    ensures multiset(Months(a, monthOf)) == multiset(Months(b, monthOf))
    decreases |a|
  {
    if |a| == 0 {
      assert |b| == |multiset(b)| == 0;
    } else {
      var x := a[0];
      assert x in multiset(b);
      var k :| 0 <= k < |b| && b[k] == x;
      var b' := b[..k] + b[k + 1..];
      assert b == b[..k] + [x] + b[k + 1..];
      assert a == [x] + a[1..];
      assert multiset(b) == multiset(b[..k]) + multiset{x} + multiset(b[k + 1..]);
      assert multiset(a) == multiset{x} + multiset(a[1..]);
      assert multiset(b') == multiset(b[..k]) + multiset(b[k + 1..]);
      assert multiset(b') == multiset(b) - multiset{x};
      assert multiset(a[1..]) == multiset(a) - multiset{x};
      MonthsPermutation(a[1..], b', monthOf);
      MonthsAppend([x], a[1..], monthOf);
      MonthsAppend(b[..k], b[k + 1..], monthOf);
      MonthsAppend(b[..k] + [x], b[k + 1..], monthOf);
      MonthsAppend(b[..k], [x], monthOf);
    }
  }

  /** Two calls on reorderings of the same dates produce the same histogram. */
  method OrderIndependent(a: seq<int>, b: seq<int>, monthOf: int -> Month)
    returns (ca: seq<MonthCount>, cb: seq<MonthCount>)
    requires multiset(a) == multiset(b)
    ensures ca == cb
  {
    ca := MonthlyBookingCount(a, monthOf);
    cb := MonthlyBookingCount(b, monthOf);
    MonthsPermutation(a, b, monthOf);
    assert forall m :: 0 <= m < 12 ==> ca[m] == cb[m] by {
      forall m | 0 <= m < 12 ensures ca[m] == cb[m] {
        assert ca[m].count == cb[m].count by {
          assert ca[m as Month].count == cb[m as Month].count;
        }
      }
    }
  }
}

=== FILE: domain.dfy ===
/**
 * Records of the hotel booking backend (Hotel, Room, Booking, User), the
 * booking status enum, the error kinds the controllers raise, and the
 * store the controllers read and write.
 *
 * A date carries the raw value the client sent and its timestamp. The
 * controllers compare dates in three ways: raw values (duplicate check),
 * timestamps (conflict check and release) and calendar days (the "not in
 * the past" check). The calendar day of a timestamp depends on the
 * server's time zone, so it is a function parameter wherever it is needed.
 */
module Domain {

  type Id = string

  datatype Option<+T> = None | Some(value: T)

  /**
   * `stamp` is the timestamp the clash check, the release and the search
   * compare. Each of them hands `Date.parse` a Date object, which it reads
   * back through the object's string form; that form has no milliseconds,
   * so the timestamp is the instant rounded down to a whole second, in
   * milliseconds. The past-day check parses a date string instead, the
   * calendar day, and the model gives it the calendar day through `dayOf`.
   */
  datatype Date = Date(raw: string, stamp: int)

  /** The date a client sends as `raw` for the instant `ms`. */
  function DateAt(raw: string, ms: int): (d: Date)
    ensures d.raw == raw
    ensures d.stamp % 1000 == 0
    ensures d.stamp <= ms < d.stamp + 1000
  {
    Date(raw, ms - ms % 1000)
  }

  /** The set of timestamps of a list of dates. */
  function Stamps(ds: seq<Date>): (r: set<int>)
    ensures forall i :: 0 <= i < |ds| ==> ds[i].stamp in r
  {
    set i | 0 <= i < |ds| :: ds[i].stamp
  }

  lemma StampsAppend(a: seq<Date>, b: seq<Date>)
    ensures Stamps(a + b) == Stamps(a) + Stamps(b)
  {
    var ab := a + b;
    forall t | t in Stamps(ab) ensures t in Stamps(a) + Stamps(b) {
      var i :| 0 <= i < |ab| && ab[i].stamp == t;
      if i < |a| {
        assert a[i] == ab[i];
      } else {
        assert b[i - |a|] == ab[i];
      }
    }
    forall t | t in Stamps(a) ensures t in Stamps(ab) {
      var i :| 0 <= i < |a| && a[i].stamp == t;
      assert ab[i] == a[i];
    }
    forall t | t in Stamps(b) ensures t in Stamps(ab) {
      var i :| 0 <= i < |b| && b[i].stamp == t;
      assert ab[|a| + i] == b[i];
    }
  }

  /** Booking status, stored as a string enum that defaults to Processing. */
  datatype Status = Processing | Checked | Complete {
    function Name(): string {
      match this
      case Processing => "Processing"
      case Checked => "Checked"
      case Complete => "Complete"
    }
  }

  /** Reads a status string; only the three enum values are statuses. */
  function ParseStatus(s: string): (r: Option<Status>)
    ensures r.Some? ==> r.value.Name() == s
    ensures forall st: Status :: st.Name() == s ==> r == Some(st)
  {
    if s == "Processing" then Some(Processing)
    else if s == "Checked" then Some(Checked)
    else if s == "Complete" then Some(Complete)
    else None
  }

  const InitialStatus: Status := Processing

  datatype RoomType = Single | Double

  /** The `paymentInfo` sub-document: an id and a status string, nothing else. */
  datatype PaymentInfo = PaymentInfo(id: string, status: string)

  datatype Hotel = Hotel(
    name: string,
    location: string,
    distance: int,
    description: string,
    specification: seq<string>,
    rooms: seq<Id>)

  datatype Room = Room(
    number: int,
    name: string,
    roomType: RoomType,
    pricePerDay: int,
    specification: seq<string>,
    notAvailable: seq<Date>,
    hotel: Id)

  datatype Booking = Booking(
    user: Id,
    hotel: Id,
    room: Id,
    dates: seq<Date>,
    totalPrice: int,
    phone: int,
    paidAt: int,
    paymentInfo: PaymentInfo,
    status: Status)

  /** A booking that is not Complete still holds its dates in its room. */
  predicate Active(b: Booking) {
    b.status != Complete
  }

  /** `password` is the stored credential; hashing is not modelled. */
  datatype User = User(name: string, email: string, password: string, role: string)

  datatype Store = Store(
    hotels: map<Id, Hotel>,
    rooms: map<Id, Room>,
    bookings: map<Id, Booking>,
    users: map<Id, User>)

  /**
   * Every error the modelled controllers pass to the error middleware.
   * `Crash` is the TypeError thrown when a controller dereferences a
   * record that a lookup did not find.
   */
  datatype ErrorKind =
    | InvalidPaymentInfo
    | HotelNotFound
    | RoomNotFound
    | RoomNotInHotel
    | NoBookingDates
    | DateBeforeToday
    | DuplicateDates
    | RoomAlreadyBooked
    | CannotChangeStatus
    | BookingNotFound
    | AlreadyCheckedIn
    | AccessDenied
    | PersonRequired
    | RoomRequired
    | BadDateRange
    | DuplicateRoomNumber
    | RoomNumberImmutable
    | PasswordTooShort
    | EmailTaken
    | UserNotFound
    | PasswordRequired
    | PasswordIncorrect
    | PasswordsRequired
    | OldPasswordIncorrect
    | OwnRoleChange
    | UnknownRole
    | Crash
  {
    /** The HTTP status the controller attaches; None when it gives none. */
    function Code(): Option<int> {
      match this
      case HotelNotFound | RoomNotFound | BookingNotFound | UserNotFound => Some(404)
      case AccessDenied => Some(403)
      case DateBeforeToday | PasswordIncorrect | OldPasswordIncorrect | EmailTaken | Crash => None
      case _ => Some(400)
    }

    function Message(): string {
      match this
      case InvalidPaymentInfo => "Invalid Payment Info"
      case HotelNotFound => "Hotel not found"
      case RoomNotFound => "Room not found"
      case RoomNotInHotel => "This Room is not available in this hotel"
      case NoBookingDates => "Please insert booking dates"
      case DateBeforeToday => "given date is before than current date"
      case DuplicateDates => "Can't book same date more than once"
      case RoomAlreadyBooked => "Room already booked"
      case CannotChangeStatus => "Can't change booking status"
      case BookingNotFound => "Booking not found"
      case AlreadyCheckedIn => "User already checked in"
      case AccessDenied => "Access denied"
      case PersonRequired => "At least one person required"
      case RoomRequired => "At least one room required"
      case BadDateRange => "Please check start and end date"
      case DuplicateRoomNumber => "Duplicate room number"
      case RoomNumberImmutable => "Room number can't be changed"
      case PasswordTooShort => "Password should be at least 8 characters."
      case EmailTaken => "E11000 duplicate key error"
      case UserNotFound => "User not found"
      case PasswordRequired => "Please enter password"
      case PasswordIncorrect => "Password incorrect"
      case PasswordsRequired => "Please enter old and new password"
      case OldPasswordIncorrect => "Old password incorrect"
      case OwnRoleChange => "You can't change change your own role"
      case UnknownRole => "Only user and admin role available"
      case Crash => "TypeError"
    }
  }

  /**
   * The outcome of a controller: a value, or the error it reports. A
   * controller that fails returns no new store, so nothing it would have
   * written is persisted.
   */
  datatype Result<+T> = Ok(value: T) | Fail(error: ErrorKind)
}

=== FILE: hotel_search.dfy ===
/**
 * The hotel search of `getAllHotels` (backend/controllers/hotelController.js):
 * query validation, expansion of the date range into one timestamp per
 * day, and the room-count, party-size and free-room filters.
 */
module HotelSearch {
  import opened Domain
  import opened Seqs

  /** Milliseconds in a day; the range advances by one calendar day per step. */
  const DayMs: int := 86_400_000

  /**
   * The query string. A field is Some when the parameter is present and
   * non-empty; `room` and `person` are its numeric value, `d1` and `d2` the
   * timestamps of the two dates.
   */
  datatype Query = Query(
    location: Option<string>,
    room: Option<int>,
    person: Option<int>,
    d1: Option<int>,
    d2: Option<int>)

  /** `t` is one of the days from `d1` to `d2`, both included. */
  predicate InRange(t: int, d1: int, d2: int) {
    d1 <= t <= d2 && (t - d1) % DayMs == 0
  }

  /**
   * The loop of `getAllHotels` that pushes the timestamp of every day from
   * `d1` up to `d2`.
   */
  method ExpandRange(d1: int, d2: int) returns (days: seq<int>)
    ensures forall i :: 0 <= i < |days| ==> days[i] == d1 + i * DayMs
    ensures forall i :: 0 <= i < |days| ==> days[i] <= d2
    ensures forall t :: t in days <==> InRange(t, d1, d2)
  {
    days := [];
    var day := d1;
    while day <= d2
      invariant day == d1 + |days| * DayMs
      invariant forall i :: 0 <= i < |days| ==> days[i] == d1 + i * DayMs
      invariant forall i :: 0 <= i < |days| ==> days[i] <= d2
      decreases d2 - day
    {
      days := days + [day];
      day := day + DayMs;
    }
    forall t | InRange(t, d1, d2) ensures t in days {
      var k := (t - d1) / DayMs;
      assert t == d1 + k * DayMs;
      assert k < |days|;
      assert days[k] == t;
    }
    forall t | t in days ensures InRange(t, d1, d2) {
      var i :| 0 <= i < |days| && days[i] == t;
      assert (t - d1) == i * DayMs;
    }
  }

  /** Some room the hotel lists, among those that exist, satisfies `p`. */
  predicate SomeRoom(h: Hotel, rooms: map<Id, Room>, p: Room -> bool) {
    exists i :: 0 <= i < |h.rooms| && h.rooms[i] in rooms && p(rooms[h.rooms[i]])
  }

  /** The hotel lists at least the requested number of rooms. */
  predicate EnoughRooms(q: Query, h: Hotel) {
    |h.rooms| >= (if q.room.Some? then q.room.value else 0)
  }

  /** A room suits the party: any room for one person, a Double for more. */
  predicate SuitsParty(person: int, room: Room) {
    person > 1 ==> room.roomType == Double
  }

  /** No reserved timestamp of the room is one of `days`. */
  predicate FreeOn(room: Room, days: seq<int>) {
    forall k :: 0 <= k < |room.notAvailable| ==> room.notAvailable[k].stamp !in days
  }

  /** No reserved timestamp of the room is a day of the range. */
  predicate FreeThroughout(room: Room, d1: int, d2: int) {
    forall k :: 0 <= k < |room.notAvailable| ==> !InRange(room.notAvailable[k].stamp, d1, d2)
  }

  predicate HasRange(q: Query) {
    q.d1.Some? && q.d2.Some?
  }

  /** The query passes validation. */
  predicate ValidQuery(q: Query) {
    && !(q.person.Some? && q.person.value < 1)
    && !(q.room.Some? && q.room.value < 1)
    && !(HasRange(q) && q.d1.value > q.d2.value)
  }

  /** The hotels a valid query asks for. */
  predicate Wanted(q: Query, h: Hotel, rooms: map<Id, Room>) {
    && EnoughRooms(q, h)
    && (q.person.Some? ==> SomeRoom(h, rooms, room => SuitsParty(q.person.value, room)))
    && (HasRange(q) ==> SomeRoom(h, rooms, room => FreeThroughout(room, q.d1.value, q.d2.value)))
  }

  /** The hotels that list enough rooms, in order. */
  function KeepEnoughRooms(q: Query, hs: seq<Hotel>): (r: seq<Hotel>)
    ensures IsSubsequence(r, hs)
    ensures forall h :: h in r <==> h in hs && EnoughRooms(q, h)
    ensures forall h :: EnoughRooms(q, h) ==> multiset(r)[h] == multiset(hs)[h]
  {
    Filter(hs, h => EnoughRooms(q, h))
  }

  /** The hotels with some room that suits the party, in order. */
  function KeepSuitable(person: int, hs: seq<Hotel>, rooms: map<Id, Room>): (r: seq<Hotel>)
    ensures IsSubsequence(r, hs)
    ensures forall h :: h in r <==> h in hs && SomeRoom(h, rooms, room => SuitsParty(person, room))
    ensures forall h :: SomeRoom(h, rooms, room => SuitsParty(person, room)) ==> multiset(r)[h] == multiset(hs)[h]
  {
    Filter(hs, h => SomeRoom(h, rooms, room => SuitsParty(person, room)))
  }

  /** The hotels with some room free on every one of `days`, in order. */
  function KeepFree(days: seq<int>, hs: seq<Hotel>, rooms: map<Id, Room>): (r: seq<Hotel>)
    ensures IsSubsequence(r, hs)
    ensures forall h :: h in r <==> h in hs && SomeRoom(h, rooms, room => FreeOn(room, days))
    ensures forall h :: SomeRoom(h, rooms, room => FreeOn(room, days)) ==> multiset(r)[h] == multiset(hs)[h]
  {
    Filter(hs, h => SomeRoom(h, rooms, room => FreeOn(room, days)))
  }

  /** Being free on the expanded days is being free throughout the range. */
  lemma FreeOnExpandedRange(h: Hotel, rooms: map<Id, Room>, days: seq<int>, d1: int, d2: int)
    requires forall t :: t in days <==> InRange(t, d1, d2)
    ensures SomeRoom(h, rooms, room => FreeOn(room, days))
        <==> SomeRoom(h, rooms, room => FreeThroughout(room, d1, d2))
  {
    forall room: Room ensures FreeOn(room, days) <==> FreeThroughout(room, d1, d2) {
    }
  }

  /**
   * `getAllHotels` after the location match: `candidates` are the hotels
   * whose location matches, in the order the database returns them, and
   * `rooms` resolves room ids as `populate` does.
   */
  method SearchHotels(q: Query, candidates: seq<Hotel>, rooms: map<Id, Room>) returns (r: Result<seq<Hotel>>)
    ensures q.person.Some? && q.person.value < 1 ==> r == Fail(PersonRequired)
    ensures !(q.person.Some? && q.person.value < 1) && q.room.Some? && q.room.value < 1
      ==> r == Fail(RoomRequired)
    ensures (!(q.person.Some? && q.person.value < 1) && !(q.room.Some? && q.room.value < 1)
             && HasRange(q) && q.d1.value > q.d2.value) ==> r == Fail(BadDateRange)
    ensures r.Ok? <==> ValidQuery(q)
    ensures r.Ok? ==> IsSubsequence(r.value, candidates)
    ensures r.Ok? ==> forall h :: h in r.value <==> h in candidates && Wanted(q, h, rooms)
    ensures r.Ok? ==> forall h :: Wanted(q, h, rooms) ==> multiset(r.value)[h] == multiset(candidates)[h]
  {
    if q.person.Some? && q.person.value < 1 {
      return Fail(PersonRequired);
    }
    if q.room.Some? && q.room.value < 1 {
      return Fail(RoomRequired);
    }
    var days: seq<int> := [];
    if HasRange(q) {
      if q.d1.value > q.d2.value {
        return Fail(BadDateRange);
      }
      days := ExpandRange(q.d1.value, q.d2.value);
      assert q.d1.value in days;
    }
    var enough := KeepEnoughRooms(q, candidates);
    var suitable := enough;
    if q.person.Some? {
      suitable := KeepSuitable(q.person.value, enough, rooms);
      SubsequenceTrans(suitable, enough, candidates);
    }
    assert forall h :: h in suitable <==> (h in candidates && EnoughRooms(q, h)
      && (q.person.Some? ==> SomeRoom(h, rooms, room => SuitsParty(q.person.value, room))));
    var free := suitable;
    if |days| > 0 {
      free := KeepFree(days, suitable, rooms);
      SubsequenceTrans(free, suitable, candidates);
      forall h | h in suitable ensures SomeRoom(h, rooms, room => FreeOn(room, days))
          <==> SomeRoom(h, rooms, room => FreeThroughout(room, q.d1.value, q.d2.value))
      {
        FreeOnExpandedRange(h, rooms, days, q.d1.value, q.d2.value);
      }
    }
    return Ok(free);
  }
}

=== FILE: inventory.dfy ===
/**
 * Room and hotel administration (backend/controllers/roomController.js and
 * `deleteHotel` in backend/controllers/hotelController.js): room numbers
 * are unique within a hotel and never change, and deleting a room or a
 * hotel deletes what depends on it.
 */
module Inventory {
  import opened Domain
  import opened Seqs
  import opened Text

  /** The fields `createRoom` reads from the request body. */
  datatype RoomForm = RoomForm(
    number: int,
    name: string,
    roomType: RoomType,
    specification: seq<string>,
    pricePerDay: int)

  /**
   * The fields `updateRoom` reads from the request body; None is a field
   * the body leaves out. `bedCount` is not a field of the room schema, so
   * the update drops it.
   */
  datatype RoomUpdate = RoomUpdate(
    number: Option<int>,
    name: Option<string>,
    roomType: Option<RoomType>,
    bedCount: Option<int>,
    specification: Option<seq<string>>,
    pricePerDay: Option<int>)

  function OrElse<T>(o: Option<T>, current: T): T {
    if o.Some? then o.value else current
  }

  /** Some room of the hotel already has this number. */
  predicate NumberTaken(s: Store, hotelId: Id, number: int) {
    exists id :: id in s.rooms && s.rooms[id].hotel == hotelId && s.rooms[id].number == number
  }

  /**
   * `createRoom`: a new room with the fresh id `roomId`, linked both ways
   * to its hotel. The room schema trims the name.
   */
  function CreateRoom(s: Store, hotelId: Id, form: RoomForm, roomId: Id): (r: Result<Store>)
    requires roomId !in s.rooms
    ensures hotelId !in s.hotels ==> r == Fail(HotelNotFound)
    ensures hotelId in s.hotels && NumberTaken(s, hotelId, form.number) ==> r == Fail(DuplicateRoomNumber)
    ensures r.Ok? <==> hotelId in s.hotels && !NumberTaken(s, hotelId, form.number)
    ensures r.Ok? ==>
      && r.value.rooms.Keys == s.rooms.Keys + {roomId}
      && (forall id :: id in s.rooms ==> r.value.rooms[id] == s.rooms[id])
      && r.value.rooms[roomId]
         == Room(form.number, Trim(form.name), form.roomType, form.pricePerDay, form.specification, [], hotelId)
      && r.value.hotels.Keys == s.hotels.Keys
      && (forall id :: id in s.hotels && id != hotelId ==> r.value.hotels[id] == s.hotels[id])
      && r.value.hotels[hotelId] == s.hotels[hotelId].(rooms := s.hotels[hotelId].rooms + [roomId])
      && r.value.bookings == s.bookings
      && r.value.users == s.users
  {
    if hotelId !in s.hotels then Fail(HotelNotFound)
    else if NumberTaken(s, hotelId, form.number) then Fail(DuplicateRoomNumber)
    else
      var room := Room(form.number, Trim(form.name), form.roomType, form.pricePerDay, form.specification, [], hotelId);
      var hotel := s.hotels[hotelId];
      Ok(s.(rooms := s.rooms[roomId := room],
            hotels := s.hotels[hotelId := hotel.(rooms := hotel.rooms + [roomId])]))
  }

  /** The body's `number` is truthy: present and not zero. */
  predicate NumberGiven(upd: RoomUpdate) {
    upd.number.Some? && upd.number.value != 0
  }

  /**
   * `updateRoom`: rejects any attempt to send a room number, then sets the
   * descriptive fields the body gives. The `$set` runs through the schema's
   * setters, so a new name is trimmed.
   */
  function UpdateRoom(s: Store, roomId: Id, upd: RoomUpdate): (r: Result<Store>)
    ensures NumberGiven(upd) ==> r == Fail(RoomNumberImmutable)
    ensures !NumberGiven(upd) && roomId !in s.rooms ==> r == Fail(RoomNotFound)
    ensures r.Ok? <==> !NumberGiven(upd) && roomId in s.rooms
    ensures r.Ok? ==>
      && r.value.rooms.Keys == s.rooms.Keys
      && (forall id :: id in s.rooms && id != roomId ==> r.value.rooms[id] == s.rooms[id])
      && r.value.rooms[roomId].number == s.rooms[roomId].number
      && r.value.rooms[roomId].notAvailable == s.rooms[roomId].notAvailable
      && r.value.rooms[roomId].hotel == s.rooms[roomId].hotel
      && (upd.name.Some? ==> r.value.rooms[roomId].name == Trim(upd.name.value))
      && (upd.name.None? ==> r.value.rooms[roomId].name == s.rooms[roomId].name)
      && (upd.roomType.Some? ==> r.value.rooms[roomId].roomType == upd.roomType.value)
      && (upd.roomType.None? ==> r.value.rooms[roomId].roomType == s.rooms[roomId].roomType)
      && (upd.specification.Some? ==> r.value.rooms[roomId].specification == upd.specification.value)
      && (upd.specification.None? ==> r.value.rooms[roomId].specification == s.rooms[roomId].specification)
      && (upd.pricePerDay.Some? ==> r.value.rooms[roomId].pricePerDay == upd.pricePerDay.value)
      && (upd.pricePerDay.None? ==> r.value.rooms[roomId].pricePerDay == s.rooms[roomId].pricePerDay)
      && r.value.hotels == s.hotels
      && r.value.bookings == s.bookings
      && r.value.users == s.users
  {
    if NumberGiven(upd) then Fail(RoomNumberImmutable)
    else if roomId !in s.rooms then Fail(RoomNotFound)
    else
      var room := s.rooms[roomId];
      var updated := room.(
        name := if upd.name.Some? then Trim(upd.name.value) else room.name,
        roomType := OrElse(upd.roomType, room.roomType),
        specification := OrElse(upd.specification, room.specification),
        pricePerDay := OrElse(upd.pricePerDay, room.pricePerDay));
      Ok(s.(rooms := s.rooms[roomId := updated]))
  }

  /** The bookings `gone` does not select, unchanged. */
  function KeepBookings(bookings: map<Id, Booking>, gone: Booking -> bool): (r: map<Id, Booking>)
    ensures forall id :: id in r <==> id in bookings && !gone(bookings[id])
    ensures forall id :: id in r ==> r[id] == bookings[id]
  {
    map id | id in bookings && !gone(bookings[id]) :: bookings[id]
  }

  /** Keeps every listed id except `roomId`, in order. */
  function Unlink(ids: seq<Id>, roomId: Id): (r: seq<Id>)
    ensures roomId !in r
    ensures IsSubsequence(r, ids)
    ensures forall id :: id != roomId ==> multiset(r)[id] == multiset(ids)[id]
  {
    Filter(ids, id => id != roomId)
  }

  /**
   * `deleteRoom`: removes the room from its hotel's list, deletes the
   * room's bookings and then the room.
   */
  function DeleteRoom(s: Store, roomId: Id): (r: Result<Store>)
    ensures roomId !in s.rooms ==> r == Fail(RoomNotFound)
    ensures roomId in s.rooms && s.rooms[roomId].hotel !in s.hotels ==> r == Fail(Crash)
    ensures r.Ok? <==> roomId in s.rooms && s.rooms[roomId].hotel in s.hotels
    ensures r.Ok? ==>
      var hotelId := s.rooms[roomId].hotel;
      && r.value.rooms == s.rooms - {roomId}
      && r.value.hotels.Keys == s.hotels.Keys
      && (forall id :: id in s.hotels && id != hotelId ==> r.value.hotels[id] == s.hotels[id])
      && r.value.hotels[hotelId] == s.hotels[hotelId].(rooms := Unlink(s.hotels[hotelId].rooms, roomId))
      && (forall id :: id in r.value.bookings <==> id in s.bookings && s.bookings[id].room != roomId)
      && (forall id :: id in r.value.bookings ==> r.value.bookings[id] == s.bookings[id])
      && r.value.users == s.users
  {
    if roomId !in s.rooms then Fail(RoomNotFound)
    else
      var hotelId := s.rooms[roomId].hotel;
      if hotelId !in s.hotels then Fail(Crash)
      else
        var hotel := s.hotels[hotelId];
        Ok(s.(hotels := s.hotels[hotelId := hotel.(rooms := Unlink(hotel.rooms, roomId))],
              bookings := KeepBookings(s.bookings, (b: Booking) => b.room == roomId),
              rooms := s.rooms - {roomId}))
  }

  /**
   * `deleteHotel`: deletes every room the hotel lists, every booking made
   * at the hotel, and the hotel.
   */
  function DeleteHotel(s: Store, hotelId: Id): (r: Result<Store>)
    ensures hotelId !in s.hotels ==> r == Fail(HotelNotFound)
    ensures r.Ok? <==> hotelId in s.hotels
    ensures r.Ok? ==>
      && r.value.hotels == s.hotels - {hotelId}
      && (forall id :: id in r.value.rooms <==> id in s.rooms && id !in s.hotels[hotelId].rooms)
      && (forall id :: id in r.value.rooms ==> r.value.rooms[id] == s.rooms[id])
      && (forall id :: id in r.value.bookings <==> id in s.bookings && s.bookings[id].hotel != hotelId)
      && (forall id :: id in r.value.bookings ==> r.value.bookings[id] == s.bookings[id])
      && r.value.users == s.users
  {
    if hotelId !in s.hotels then Fail(HotelNotFound)
    else
      var listed := s.hotels[hotelId].rooms;
      Ok(s.(rooms := map id | id in s.rooms && id !in listed :: s.rooms[id],
            bookings := KeepBookings(s.bookings, (b: Booking) => b.hotel == hotelId),
            hotels := s.hotels - {hotelId}))
  }
}

=== FILE: ledger.dfy ===
/**
 * The availability ledger: a room's `notAvailable` list of reserved
 * dates, and the checks and updates the booking controller performs on it
 * (backend/controllers/bookingController.js).
 */
module Ledger {
  import opened Domain
  import opened Seqs

  /** The raw values of a list of dates, in order. */
  function RawValues(ds: seq<Date>): (r: seq<string>)
    ensures |r| == |ds|
    ensures forall i :: 0 <= i < |ds| ==> r[i] == ds[i].raw
  {
    seq(|ds|, i requires 0 <= i < |ds| => ds[i].raw)
  }

  /**
   * The duplicate check of a booking request: the number of dates differs
   * from the size of the set of their raw values. Two dates count as the
   * same only when their raw values are equal.
   */
  function HasDuplicate(ds: seq<Date>): (dup: bool)
    ensures dup <==> exists i, j :: 0 <= i < j < |ds| && ds[i].raw == ds[j].raw
  {
    var raws := RawValues(ds);
    DistinctIffSizesAgree(raws);
    assert Distinct(raws) <==> !exists i, j :: 0 <= i < j < |ds| && ds[i].raw == ds[j].raw;
    |ds| != |Elements(raws)|
  }

  /**
   * The conflict check of a booking request: the room already has dates
   * and some requested date has a timestamp among them.
   */
  function AlreadyBooked(notAvailable: seq<Date>, dates: seq<Date>): (booked: bool)
    ensures booked <==> Stamps(notAvailable) * Stamps(dates) != {}
  {
    if |notAvailable| > 0 then
      var booked := exists i :: 0 <= i < |dates| && dates[i].stamp in Stamps(notAvailable);
      assert booked ==> Stamps(notAvailable) * Stamps(dates) != {} by {
        if booked {
          var i :| 0 <= i < |dates| && dates[i].stamp in Stamps(notAvailable);
          assert dates[i].stamp in Stamps(dates);
          assert dates[i].stamp in Stamps(notAvailable) * Stamps(dates);
        }
      }
      assert Stamps(notAvailable) * Stamps(dates) != {} ==> booked by {
        if Stamps(notAvailable) * Stamps(dates) != {} {
          var t :| t in Stamps(notAvailable) * Stamps(dates);
          var i :| 0 <= i < |dates| && dates[i].stamp == t;
        }
      }
      booked
    else
      assert Stamps(notAvailable) == {};
      false
  }

  /** Pushes the requested dates, in request order, after the reserved ones. */
  function Reserve(notAvailable: seq<Date>, dates: seq<Date>): (r: seq<Date>)
    ensures |r| == |notAvailable| + |dates|
    ensures r[..|notAvailable|] == notAvailable
    ensures r[|notAvailable|..] == dates
    ensures Stamps(r) == Stamps(notAvailable) + Stamps(dates)
  {
    StampsAppend(notAvailable, dates);
    notAvailable + dates
  }

  /** Keeps a date unless its timestamp is among `released`. */
  function Unreleased(released: set<int>): (keep: Date -> bool)
    ensures forall d :: keep(d) <==> d.stamp !in released
  {
    (d: Date) => d.stamp !in released
  }

  /**
   * Removes from `notAvailable` every date whose timestamp is in
   * `released`, keeping the others in their order.
   */
  function ReleaseStamps(notAvailable: seq<Date>, released: set<int>): (r: seq<Date>)
    ensures Stamps(r) == Stamps(notAvailable) - released
    ensures IsSubsequence(r, notAvailable)
    ensures forall d: Date :: d in r ==> d.stamp !in released
    ensures forall d: Date :: d.stamp !in released ==> multiset(r)[d] == multiset(notAvailable)[d]
  {
    var r := Filter(notAvailable, Unreleased(released));
    KeptStamps(notAvailable, r, released);
    r
  }

  /** The timestamps left after dropping exactly the dates stamped in `released`. */
  lemma KeptStamps(notAvailable: seq<Date>, r: seq<Date>, released: set<int>)
    requires forall d :: d in r ==> d in notAvailable && d.stamp !in released
    requires forall d :: d in notAvailable && d.stamp !in released ==> d in r
    ensures Stamps(r) == Stamps(notAvailable) - released
  {
    forall t | t in Stamps(r) ensures t in Stamps(notAvailable) - released {
      var i :| 0 <= i < |r| && r[i].stamp == t;
      assert r[i] in r;
      var j :| 0 <= j < |notAvailable| && notAvailable[j] == r[i];
    }
    forall t | t in Stamps(notAvailable) - released ensures t in Stamps(r) {
      var i :| 0 <= i < |notAvailable| && notAvailable[i].stamp == t;
      assert notAvailable[i] in notAvailable;
      var j :| 0 <= j < |r| && r[j] == notAvailable[i];
    }
  }

  /**
   * The release `updateBooking` performs: every date whose timestamp equals
   * the timestamp of one of `dates` goes, the others stay in their order.
   */
  function Release(notAvailable: seq<Date>, dates: seq<Date>): (r: seq<Date>)
    ensures Stamps(r) == Stamps(notAvailable) - Stamps(dates)
    ensures IsSubsequence(r, notAvailable)
    ensures forall d: Date :: d in r ==> d.stamp !in Stamps(dates)
    ensures forall d: Date :: d.stamp !in Stamps(dates) ==> multiset(r)[d] == multiset(notAvailable)[d]
  {
    ReleaseStamps(notAvailable, Stamps(dates))
  }

  /** Releasing dates none of which is reserved changes nothing. */
  lemma ReleaseAbsentIsNoop(notAvailable: seq<Date>, dates: seq<Date>)
    requires Stamps(notAvailable) * Stamps(dates) == {}
    ensures Release(notAvailable, dates) == notAvailable
  {
    var keep := Unreleased(Stamps(dates));
    forall i | 0 <= i < |notAvailable| ensures keep(notAvailable[i]) {
      var t := notAvailable[i].stamp;
      assert t in Stamps(notAvailable);
      assert t !in Stamps(notAvailable) * Stamps(dates);
    }
    FilterKeepsAll(notAvailable, keep);
  }

  /** Releasing what was just reserved, when it did not clash, restores the ledger. */
  lemma ReleaseUndoesReserve(notAvailable: seq<Date>, dates: seq<Date>)
    requires Stamps(notAvailable) * Stamps(dates) == {}
    ensures Release(Reserve(notAvailable, dates), dates) == notAvailable
  {
    var keep := Unreleased(Stamps(dates));
    FilterAppend(notAvailable, dates, keep);
    ReleaseAbsentIsNoop(notAvailable, dates);
    forall i | 0 <= i < |dates| ensures !keep(dates[i]) {
      assert dates[i].stamp in Stamps(dates);
    }
    FilterKeepsNone(dates, keep);
  }

  /**
   * Two single dates clash exactly when their instants fall in the same
   * whole second, whatever their raw values and milliseconds.
   */
  lemma SameSecondClash(rawA: string, msA: int, rawB: string, msB: int)
    ensures AlreadyBooked([DateAt(rawA, msA)], [DateAt(rawB, msB)]) <==> msA / 1000 == msB / 1000
  {
    var a, b := DateAt(rawA, msA), DateAt(rawB, msB);
    assert [a][0].stamp in Stamps([a]);
    assert Stamps([a]) == {a.stamp};
    assert [b][0].stamp in Stamps([b]);
    assert Stamps([b]) == {b.stamp};
    assert a.stamp == msA / 1000 * 1000;
    assert b.stamp == msB / 1000 * 1000;
  }
}

=== FILE: reservations.dfy ===
/**
 * The booking controller (backend/controllers/bookingController.js):
 * the fail-fast validation chain of `createBooking` and its ledger append,
 * the status machine of `updateBooking` with its date release, and the
 * ownership check of `getOwnBookingDetails`.
 */
module Reservations {
  import opened Domain
  import opened Ledger

  /** What the payment provider reports for the intent named in the request. */
  datatype PaymentIntent = PaymentIntent(status: string, amount: int)

  /** The body of a booking request; prices are whole currency units. */
  datatype BookingRequest = BookingRequest(
    paymentInfo: PaymentInfo,
    dates: seq<Date>,
    totalPrice: int,
    phone: int)

  /** The intent is captured and its amount, in minor units, is the total price. */
  predicate PaymentVerified(intent: PaymentIntent, totalPrice: int) {
    intent.status == "succeeded" && intent.amount == totalPrice * 100
  }

  /** Both records exist and the hotel lists the room. */
  predicate Located(s: Store, hotelId: Id, roomId: Id) {
    hotelId in s.hotels && roomId in s.rooms && roomId in s.hotels[hotelId].rooms
  }

  /** No requested date falls on a calendar day before today's. */
  predicate NoneBeforeToday(dates: seq<Date>, now: int, dayOf: int -> int) {
    forall i :: 0 <= i < |dates| ==> dayOf(now) <= dayOf(dates[i].stamp)
  }

  /** No two requested dates have the same raw value. */
  predicate RawDistinct(dates: seq<Date>) {
    forall i, j :: 0 <= i < j < |dates| ==> dates[i].raw != dates[j].raw
  }

  /** The booking record `createBooking` stores. */
  function NewBooking(hotelId: Id, roomId: Id, userId: Id, req: BookingRequest, now: int): (b: Booking)
    ensures b.status == InitialStatus
    ensures b.dates == req.dates
    ensures b.user == userId && b.hotel == hotelId && b.room == roomId
    ensures b.paidAt == now && b.paymentInfo == req.paymentInfo
    ensures b.totalPrice == req.totalPrice && b.phone == req.phone
  {
    Booking(userId, hotelId, roomId, req.dates, req.totalPrice, req.phone, now, req.paymentInfo, Processing)
  }

  /**
   * `createBooking`: the checks run in order and the first failure wins;
   * when all pass, the requested dates are appended to the room's
   * `notAvailable` list and the booking is stored with the fresh id
   * `bookingId`. `now` is the server clock and `dayOf` the calendar day of
   * a timestamp.
   */
  function CreateBooking(
    s: Store, hotelId: Id, roomId: Id, userId: Id, req: BookingRequest,
    intent: PaymentIntent, now: int, dayOf: int -> int, bookingId: Id): (r: Result<Store>)
    requires bookingId !in s.bookings
    // fail-fast order of the checks
    ensures !PaymentVerified(intent, req.totalPrice) ==> r == Fail(InvalidPaymentInfo)
    ensures PaymentVerified(intent, req.totalPrice) && hotelId !in s.hotels ==> r == Fail(HotelNotFound)
    ensures PaymentVerified(intent, req.totalPrice) && hotelId in s.hotels && roomId !in s.rooms
      ==> r == Fail(RoomNotFound)
    ensures (PaymentVerified(intent, req.totalPrice) && hotelId in s.hotels && roomId in s.rooms
             && roomId !in s.hotels[hotelId].rooms) ==> r == Fail(RoomNotInHotel)
    ensures PaymentVerified(intent, req.totalPrice) && Located(s, hotelId, roomId) ==>
      && (|req.dates| == 0 ==> r == Fail(NoBookingDates))
      && (|req.dates| > 0 && !NoneBeforeToday(req.dates, now, dayOf) ==> r == Fail(DateBeforeToday))
      && (|req.dates| > 0 && NoneBeforeToday(req.dates, now, dayOf) && !RawDistinct(req.dates)
          ==> r == Fail(DuplicateDates))
      && (|req.dates| > 0 && NoneBeforeToday(req.dates, now, dayOf) && RawDistinct(req.dates)
          && Stamps(s.rooms[roomId].notAvailable) * Stamps(req.dates) != {}
          ==> r == Fail(RoomAlreadyBooked))
    // success exactly when every check passes
    ensures r.Ok? <==>
      && PaymentVerified(intent, req.totalPrice)
      && Located(s, hotelId, roomId)
      && |req.dates| > 0
      && NoneBeforeToday(req.dates, now, dayOf)
      && RawDistinct(req.dates)
      && Stamps(s.rooms[roomId].notAvailable) * Stamps(req.dates) == {}
    // the ledger grows by the request, in order; the booking is stored
    ensures r.Ok? ==>
      && r.value.rooms.Keys == s.rooms.Keys
      && |r.value.rooms[roomId].notAvailable| == |s.rooms[roomId].notAvailable| + |req.dates|
      && r.value.rooms[roomId].notAvailable[..|s.rooms[roomId].notAvailable|] == s.rooms[roomId].notAvailable
      && r.value.rooms[roomId].notAvailable[|s.rooms[roomId].notAvailable|..] == req.dates
      && Stamps(r.value.rooms[roomId].notAvailable) == Stamps(s.rooms[roomId].notAvailable) + Stamps(req.dates)
      && r.value.rooms[roomId] == s.rooms[roomId].(notAvailable := r.value.rooms[roomId].notAvailable)
      && (forall id :: id in s.rooms && id != roomId ==> r.value.rooms[id] == s.rooms[id])
      && r.value.bookings == s.bookings[bookingId := NewBooking(hotelId, roomId, userId, req, now)]
      && r.value.hotels == s.hotels
      && r.value.users == s.users
  {
    if !PaymentVerified(intent, req.totalPrice) then Fail(InvalidPaymentInfo)
    else if hotelId !in s.hotels then Fail(HotelNotFound)
    else if roomId !in s.rooms then Fail(RoomNotFound)
    else if roomId !in s.hotels[hotelId].rooms then Fail(RoomNotInHotel)
    else if |req.dates| < 1 then Fail(NoBookingDates)
    else if !NoneBeforeToday(req.dates, now, dayOf) then Fail(DateBeforeToday)
    else if HasDuplicate(req.dates) then Fail(DuplicateDates)
    else
      var room := s.rooms[roomId];
      if AlreadyBooked(room.notAvailable, req.dates) then Fail(RoomAlreadyBooked)
      else
        var booked := room.(notAvailable := Reserve(room.notAvailable, req.dates));
        Ok(s.(rooms := s.rooms[roomId := booked],
              bookings := s.bookings[bookingId := NewBooking(hotelId, roomId, userId, req, now)]))
  }

  /** The legal status changes: forward only, and never out of Complete. */
  predicate Transition(from: Status, to: Status) {
    match (from, to)
    case (Processing, Checked) => true
    case (Processing, Complete) => true
    case (Checked, Complete) => true
    case _ => false
  }

  /** The status a request names, for the two targets `updateBooking` accepts. */
  function Target(target: string): (st: Option<Status>)
    ensures st.Some? <==> target == "Complete" || target == "Checked"
    ensures st.Some? ==> st.value.Name() == target
  {
    if target == "Complete" then Some(Complete)
    else if target == "Checked" then Some(Checked)
    else None
  }

  /**
   * Every target `updateBooking` accepts is a status the booking schema's
   * enum accepts, so the status it stores is always a valid one.
   */
  lemma TargetsAreSchemaStatuses(target: string)
    ensures Target(target).Some? ==> ParseStatus(target) == Target(target)
    ensures Target(target).None? ==> ParseStatus(target) == None || ParseStatus(target) == Some(InitialStatus)
  {
  }

  /**
   * `updateBooking`: moves a booking to `Checked` or `Complete`. Completing
   * releases the booking's dates from its room; checking in touches no room.
   */
  function UpdateBooking(s: Store, bookingId: Id, target: string): (r: Result<Store>)
    // the target is validated before the lookup
    ensures Target(target).None? ==> r == Fail(CannotChangeStatus)
    ensures Target(target).Some? && bookingId !in s.bookings ==> r == Fail(BookingNotFound)
    // the rejections of the two targets
    ensures bookingId in s.bookings && s.bookings[bookingId].status == Complete ==> r.Fail?
    ensures target == "Checked" && bookingId in s.bookings && s.bookings[bookingId].status == Checked
      ==> r == Fail(AlreadyCheckedIn)
    ensures target == "Checked" && bookingId in s.bookings && s.bookings[bookingId].status == Complete
      ==> r == Fail(CannotChangeStatus)
    ensures target == "Complete" && bookingId in s.bookings && s.bookings[bookingId].status == Complete
      ==> r == Fail(CannotChangeStatus)
    // success follows the transition table
    ensures r.Ok? <==>
      && Target(target).Some?
      && bookingId in s.bookings
      && Transition(s.bookings[bookingId].status, Target(target).value)
      && (target == "Complete" ==> s.bookings[bookingId].room in s.rooms)
    // only the status of this booking changes
    ensures r.Ok? ==>
      && r.value.bookings == s.bookings[bookingId := s.bookings[bookingId].(status := Target(target).value)]
      && r.value.hotels == s.hotels
      && r.value.users == s.users
    // checking in leaves the ledger alone
    ensures r.Ok? && target == "Checked" ==> r.value.rooms == s.rooms
    // completing releases exactly the booking's timestamps from its room
    ensures r.Ok? && target == "Complete" ==>
      && s.bookings[bookingId].room in s.rooms
      && r.value.rooms.Keys == s.rooms.Keys
    ensures r.Ok? && target == "Complete" ==>
      var roomId := s.bookings[bookingId].room;
      var before := s.rooms[roomId].notAvailable;
      var after := r.value.rooms[roomId].notAvailable;
      && (forall id :: id in s.rooms && id != roomId ==> r.value.rooms[id] == s.rooms[id])
      && r.value.rooms[roomId] == s.rooms[roomId].(notAvailable := after)
      && after == Release(before, s.bookings[bookingId].dates)
  {
    if target != "Complete" && target != "Checked" then Fail(CannotChangeStatus)
    else if bookingId !in s.bookings then Fail(BookingNotFound)
    else
      var b := s.bookings[bookingId];
      if target == "Complete" then
        if b.status == Complete then Fail(CannotChangeStatus)
        else if b.room !in s.rooms then Fail(Crash)
        else
          var room := s.rooms[b.room];
          var released := room.(notAvailable := Release(room.notAvailable, b.dates));
          Ok(s.(rooms := s.rooms[b.room := released],
                bookings := s.bookings[bookingId := b.(status := Complete)]))
      else
        if b.status == Checked then Fail(AlreadyCheckedIn)
        else if b.status == Complete then Fail(CannotChangeStatus)
        else Ok(s.(bookings := s.bookings[bookingId := b.(status := Checked)]))
  }

  /** `getOwnBookingDetails`: a user sees a booking only if it is theirs. */
  function GetOwnBookingDetails(s: Store, bookingId: Id, userId: Id): (r: Result<Booking>)
    ensures bookingId !in s.bookings ==> r == Fail(BookingNotFound)
    ensures bookingId in s.bookings && s.bookings[bookingId].user != userId ==> r == Fail(AccessDenied)
    ensures r.Ok? <==> bookingId in s.bookings && s.bookings[bookingId].user == userId
    ensures r.Ok? ==> r.value == s.bookings[bookingId]
    ensures r.Fail? ==> r.error.Code() == Some(if bookingId in s.bookings then 403 else 404)
  {
    if bookingId !in s.bookings then Fail(BookingNotFound)
    else if s.bookings[bookingId].user != userId then Fail(AccessDenied)
    else Ok(s.bookings[bookingId])
  }
}

=== FILE: routing.dfy ===
/**
 * `ProtectedRoute` (frontend/src/utils/ProtectedRoute.js): the guard
 * around every page that needs a signed-in user, and around admin pages.
 * The component renders a fragment of conditional parts; the model
 * computes that fragment as a list of the parts that render.
 */
module Routing {
  import opened Domain

  /** A part of the fragment: the spinner, a redirect, or the guarded page. */
  datatype Element = Loader | RedirectTo(path: string) | Children

  const LoginPath: string := "/login"
  const AccountPath: string := "/account"

  /**
   * The rendered parts, in the component's order. `routeRole` is the
   * route's `role` prop (None when the route sets none) and `userRole` the
   * signed-in user's role.
   */
  function ProtectedRoute(isLoading: bool, isAuthenticated: bool, routeRole: Option<string>, userRole: string): (r: seq<Element>)
    ensures |r| == 1
    ensures isLoading <==> r[0] == Loader
    ensures r[0] == RedirectTo(LoginPath) <==> !isLoading && !isAuthenticated
    ensures r[0] == Children <==>
      !isLoading && isAuthenticated && (routeRole != Some("admin") || userRole == "admin")
    ensures r[0] == RedirectTo(AccountPath) <==>
      !isLoading && isAuthenticated && routeRole == Some("admin") && userRole != "admin"
  {
    var adminRoute := routeRole == Some("admin");
    (if !isLoading && !isAuthenticated then [RedirectTo(LoginPath)] else [])
    + (if !adminRoute && !isLoading && isAuthenticated then [Children] else [])
    + (if adminRoute && !isLoading && isAuthenticated && userRole == "admin" then [Children] else [])
    + (if adminRoute && !isLoading && isAuthenticated && userRole != "admin" then [RedirectTo(AccountPath)] else [])
    + (if isLoading then [Loader] else [])
  }
}

=== FILE: seqs.dfy ===
/**
 * Order-preserving filtering of lists, the shape of JavaScript's
 * `Array.prototype.filter`, and the subsequence relation that says a
 * filter only drops elements and never reorders them.
 */
module Seqs {

  /** `a` can be obtained from `b` by deleting elements. */
  predicate IsSubsequence<T(==)>(a: seq<T>, b: seq<T>)
    decreases |b|
  {
    if |a| == 0 then true
    else if |b| == 0 then false
    else (a[0] == b[0] && IsSubsequence(a[1..], b[1..])) || IsSubsequence(a, b[1..])
  }

  /** The elements of `s` that satisfy `keep`, in their original order. */
  function Filter<T(==,!new)>(s: seq<T>, keep: T -> bool): (r: seq<T>)
    ensures |r| <= |s|
    ensures forall x :: x in r ==> x in s && keep(x)
    ensures forall x :: x in s && keep(x) ==> x in r
    ensures forall x :: keep(x) ==> multiset(r)[x] == multiset(s)[x]
    ensures forall x :: !keep(x) ==> multiset(r)[x] == 0
    ensures IsSubsequence(r, s)
    decreases |s|
  {
    if |s| == 0 then []
    else
      var rest := Filter(s[1..], keep);
      assert s == [s[0]] + s[1..];
      FilterStep(s[0], s[1..], rest, keep);
      if keep(s[0]) then [s[0]] + rest else rest
  }

  /** One step of `Filter`: keeping or dropping the head keeps the counts and the order. */
  lemma FilterStep<T(!new)>(x: T, tail: seq<T>, rest: seq<T>, keep: T -> bool)
    requires forall y :: keep(y) ==> multiset(rest)[y] == multiset(tail)[y]
    requires forall y :: !keep(y) ==> multiset(rest)[y] == 0
    requires IsSubsequence(rest, tail)
    ensures
      var r := if keep(x) then [x] + rest else rest;
      && (forall y :: keep(y) ==> multiset(r)[y] == multiset([x] + tail)[y])
      && (forall y :: !keep(y) ==> multiset(r)[y] == 0)
      && IsSubsequence(r, [x] + tail)
  {
    var s := [x] + tail;
    assert s[1..] == tail;
    assert multiset(s) == multiset{x} + multiset(tail);
    if keep(x) {
      var r := [x] + rest;
      assert r[0] == x && r[1..] == rest;
      assert multiset(r) == multiset{x} + multiset(rest);
    } else if |rest| > 0 {
      assert IsSubsequence(rest, s[1..]);
    }
  }

  /** A list with no element of `s` repeated: what `new Set(s).size === s.length` tests. */
  predicate Distinct<T(==)>(s: seq<T>) {
    forall i, j :: 0 <= i < j < |s| ==> s[i] != s[j]
  }

  /** The set of a list's elements. */
  function Elements<T(!new)>(s: seq<T>): (r: set<T>)
    ensures forall x :: x in r <==> x in s
  {
    set x | x in s
  }

  /** The size of the set of elements equals the length exactly when no element repeats. */
  lemma {:induction false} DistinctIffSizesAgree<T(!new)>(s: seq<T>)
    ensures Distinct(s) <==> |Elements(s)| == |s|
    decreases |s|
  {
    if |s| == 0 {
      assert Elements(s) == {};
    } else {
      var rest := s[1..];
      DistinctIffSizesAgree(rest);
      assert Elements(s) == {s[0]} + Elements(rest);
      assert |Elements(rest)| <= |rest| by { CardinalityBound(rest); }
      if s[0] in rest {
        assert Elements(s) == Elements(rest);
        var k :| 0 <= k < |rest| && rest[k] == s[0];
        assert s[0] == s[k + 1];
        assert !Distinct(s);
      } else {
        assert |Elements(s)| == |Elements(rest)| + 1;
        if Distinct(rest) {
          forall i, j | 0 <= i < j < |s| ensures s[i] != s[j] {
            if i == 0 {
              assert s[j] == rest[j - 1];
            } else {
              assert s[i] == rest[i - 1] && s[j] == rest[j - 1];
            }
          }
        } else {
          var i, j :| 0 <= i < j < |rest| && rest[i] == rest[j];
          assert s[i + 1] == s[j + 1];
        }
      }
    }
  }

  lemma {:induction false} CardinalityBound<T(!new)>(s: seq<T>)
    ensures |Elements(s)| <= |s|
    decreases |s|
  {
    if |s| == 0 {
      assert Elements(s) == {};
    } else {
      CardinalityBound(s[1..]);
      assert Elements(s) == {s[0]} + Elements(s[1..]);
    }
  }

  lemma {:induction false} FilterAppend<T(!new)>(a: seq<T>, b: seq<T>, keep: T -> bool)
    ensures Filter(a + b, keep) == Filter(a, keep) + Filter(b, keep)
    decreases |a|
  {
    if |a| == 0 {
      assert a + b == b;
    } else {
      assert (a + b)[1..] == a[1..] + b;
      FilterAppend(a[1..], b, keep);
    }
  }

  lemma {:induction false} FilterKeepsAll<T(!new)>(s: seq<T>, keep: T -> bool)
    requires forall i :: 0 <= i < |s| ==> keep(s[i])
    ensures Filter(s, keep) == s
    decreases |s|
  {
    if |s| > 0 {
      FilterKeepsAll(s[1..], keep);
      assert s == [s[0]] + s[1..];
    }
  }

  lemma {:induction false} FilterKeepsNone<T(!new)>(s: seq<T>, keep: T -> bool)
    requires forall i :: 0 <= i < |s| ==> !keep(s[i])
    ensures Filter(s, keep) == []
    decreases |s|
  {
    if |s| > 0 {
      FilterKeepsNone(s[1..], keep);
    }
  }

  lemma {:induction false} SubsequenceTrans<T>(a: seq<T>, b: seq<T>, c: seq<T>)
    requires IsSubsequence(a, b) && IsSubsequence(b, c)
    ensures IsSubsequence(a, c)
    decreases |c|
  {
    if |a| > 0 {
      if b[0] == c[0] && IsSubsequence(b[1..], c[1..]) {
        if a[0] == b[0] && IsSubsequence(a[1..], b[1..]) {
          SubsequenceTrans(a[1..], b[1..], c[1..]);
        } else {
          SubsequenceTrans(a, b[1..], c[1..]);
        }
      } else {
        SubsequenceTrans(a, b, c[1..]);
      }
    }
  }
}

=== FILE: text.dfy ===
/**
 * JavaScript's `String.prototype.trim`, which the schemas' `trim: true`
 * option applies to a string field on every write and to the field's
 * value in a query filter.
 */
module Text {

  /**
   * A character `trim` strips: ECMAScript's WhiteSpace (tab, vertical tab,
   * form feed, the byte order mark and the space separators) or
   * LineTerminator (line feed, carriage return, line and paragraph
   * separators).
   */
  predicate IsSpace(c: char) {
    || c == '\t' || c == '\n' || c == '\U{000B}' || c == '\U{000C}' || c == '\r'
    || c == ' ' || c == '\U{00A0}' || c == '\U{1680}' || ('\U{2000}' <= c <= '\U{200A}')
    || c == '\U{2028}' || c == '\U{2029}' || c == '\U{202F}' || c == '\U{205F}'
    || c == '\U{3000}' || c == '\U{FEFF}'
  }

  predicate AllSpace(s: string) {
    forall k :: 0 <= k < |s| ==> IsSpace(s[k])
  }

  /** Neither end of the string is a space character. */
  predicate Trimmed(s: string) {
    s == [] || (!IsSpace(s[0]) && !IsSpace(s[|s| - 1]))
  }

  /** How many space characters `s` starts with. */
  function Leading(s: string): (n: nat)
    ensures n <= |s|
    ensures forall k :: 0 <= k < n ==> IsSpace(s[k])
    ensures n < |s| ==> !IsSpace(s[n])
  {
    if s == [] || !IsSpace(s[0]) then 0 else 1 + Leading(s[1..])
  }

  /** How many space characters `s` ends with. */
  function Trailing(s: string): (n: nat)
    ensures n <= |s|
    ensures forall k :: |s| - n <= k < |s| ==> IsSpace(s[k])
    ensures n < |s| ==> !IsSpace(s[|s| - 1 - n])
  {
    if s == [] || !IsSpace(s[|s| - 1]) then 0 else 1 + Trailing(s[..|s| - 1])
  }

  /** `s.trim()`: `s` without its leading and trailing space characters. */
  function Trim(s: string): (r: string)
    ensures Trimmed(r)
    ensures |r| <= |s|
  {
    var lead := Leading(s);
    if lead == |s| then
      []
    else
      var trail := Trailing(s);
      assert trail < |s| - lead;
      var r := s[lead..|s| - trail];
      r
  }

  /**
   * Space characters around a string with no space at either end are
   * exactly what `trim` removes.
   */
  lemma {:induction false} TrimPadded(pre: string, x: string, post: string)
    requires AllSpace(pre) && AllSpace(post) && Trimmed(x)
    ensures Trim(pre + x + post) == x
  {
    var s := pre + x + post;
    if x == [] {
      assert s == pre + post;
      assert AllSpace(s) by {
        forall k | 0 <= k < |s| ensures IsSpace(s[k]) {
          if k < |pre| { assert s[k] == pre[k]; } else { assert s[k] == post[k - |pre|]; }
        }
      }
    } else {
      var lead := Leading(s);
      assert s[|pre|] == x[0];
      assert lead == |pre|;
      assert lead < |s|;
      var trail := Trailing(s);
      assert s[|s| - 1 - |post|] == x[|x| - 1];
      assert trail == |post|;
      assert s[lead..|s| - trail] == x;
    }
  }

  /** `trim` ignores space characters added at either end. */
  lemma TrimIgnoresPadding(pre: string, x: string, post: string)
    requires AllSpace(pre) && AllSpace(post)
    ensures Trim(pre + x + post) == Trim(x)
  {
    var r := Trim(x);
    var p2, q2 := TrimSplit(x);
    Regroup(pre, p2, r, q2, post);
    SpaceAppend(pre, p2);
    SpaceAppend(q2, post);
    TrimPadded(pre + p2, r, q2 + post);
  }

  /** Trimming twice is trimming once, and a trimmed string is its own trim. */
  lemma TrimIdempotent(s: string)
    ensures Trimmed(s) <==> Trim(s) == s
    ensures Trim(Trim(s)) == Trim(s)
  {
    if Trimmed(s) {
      TrimPadded([], s, []);
      assert [] + s + [] == s;
    }
    TrimPadded([], Trim(s), []);
    assert [] + Trim(s) + [] == Trim(s);
  }

  /** The space characters `trim` removes from each end of `x`. */
  lemma TrimSplit(x: string) returns (p: string, q: string)
    ensures AllSpace(p) && AllSpace(q)
    ensures x == p + Trim(x) + q
    ensures AllSpace(x) <==> Trim(x) == []
  {
    var lead := Leading(x);
    if lead == |x| {
      p, q := x, [];
      assert x + [] + [] == x;
    } else {
      p, q := SplitAround(x, lead, |x| - Trailing(x));
    }
  }

  /** `x` cut into the spaces before `lead`, the middle, and the spaces from `mid` on. */
  lemma SplitAround(x: string, lead: nat, mid: nat) returns (p: string, q: string)
    requires lead < mid <= |x| && !IsSpace(x[lead])
    requires forall k :: 0 <= k < lead ==> IsSpace(x[k])
    requires forall k :: mid <= k < |x| ==> IsSpace(x[k])
    requires Trim(x) == x[lead..mid]
    ensures AllSpace(p) && AllSpace(q)
    ensures x == p + Trim(x) + q
    ensures !AllSpace(x) && Trim(x) != []
  {
    p, q := x[..lead], x[mid..];
    assert x[..mid] == p + x[lead..mid];
    assert x == x[..mid] + q;
  }

  lemma Regroup(a: string, b: string, c: string, d: string, e: string)
    ensures a + (b + c + d) + e == (a + b) + c + (d + e)
  {
  }

  lemma SpaceAppend(a: string, b: string)
    requires AllSpace(a) && AllSpace(b)
    ensures AllSpace(a + b)
  {
    var ab := a + b;
    forall k | 0 <= k < |ab| ensures IsSpace(ab[k]) {
      if k < |a| { assert ab[k] == a[k]; } else { assert ab[k] == b[k - |a|]; }
    }
  }
}
